=== FILE: README.md ===
# Rail-guardian dashboard pages, modelled in Dafny

Rail-guardian is a railway traffic-control dashboard written in TypeScript and React. This
project models the logic of its data layer and of four of its pages. The data layer is
`src/lib/mockData.ts`: the records, the fixture trains, stations and conflicts, the colour
helpers and `calculateKPIs`. The four pages are:

- **Upload Data** (`src/pages/UploadData.tsx`): the CSV header check `validateData`; the page
  state that the file input, the text area and the demo button change; the gate on
  "Load into System"; and how the server's reply is reported.
- **Conflict Alerts** (`src/pages/ConflictAlerts.tsx`): the status filter; the header badges
  and the summary cards; the countdown label `getTimeUntilConflict`; the actions offered per
  conflict; and the empty-state message.
- **Delay Prediction** (`src/pages/DelayPrediction.tsx`): the estimate table, joined to the
  trains by position; the risk colours; the three risk cards; the average confidence; and the
  current-delay and change labels.
- **Rerouting** (`src/pages/Rerouting.tsx`): the route options; the feasibility badge; the
  time-impact label; and which routes may be applied.

The JavaScript primitives these pages rely on are modelled once, in modules of their own:

| module | models |
|---|---|
| `Seqs` | `Array.prototype.filter` |
| `Text` | `split` on one character, `join` and `trim` with the ECMAScript whitespace set |
| `Numerals` | `String(n)` for integers, and `Number(s)` on integer text |

CSS class strings are modelled as a `Tone`: success, primary, warning, destructive or muted.
The rest of each class string is presentation. Clocks, file reading and the network are
parameters of the model:

- "now" is a number of milliseconds since local midnight;
- a chosen file is its name and its text;
- the upload endpoint's answer is a `Reply` value.

Files: `wrappers.dfy`, `seqs.dfy`, `text.dfy`, `numerals.dfy`, `mock_data.dfy`,
`upload_data.dfy`, `conflict_alerts.dfy`, `delay_prediction.dfy`, `rerouting.dfy`.

## Model

| member | source | states |
|---|---|---|
| Seqs.Filter | src/lib/mockData.ts:294 | `filter` keeps exactly the elements that pass, and every survivor passes |
| Seqs.FilterMultiplicity | src/pages/ConflictAlerts.tsx:31-34 | filtering keeps every occurrence of a passing value and drops every occurrence of the others |
| Seqs.FilterIsSubsequence | src/pages/UploadData.tsx:52 | filtering keeps the survivors in their original order |
| Seqs.FilterDisjointCount | src/pages/DelayPrediction.tsx:176-204 | the count for two exclusive predicates is the sum of their separate counts |
| Seqs.FilterEmpty | src/lib/mockData.ts:296 | a filter comes back empty exactly when no element passes |
| Seqs.FilterFirst | src/pages/UploadData.tsx:29-30 | the first survivor of a filter is the first element that passes; every element before it fails |
| Seqs.FilterCountsKey | src/pages/ConflictAlerts.tsx:224 | the length of `filter(c => key(c) === k)` is the tally of elements whose key is `k`, counted one by one |
| Text.Trim | src/pages/UploadData.tsx:30 | `trim` leaves no whitespace at either end and never lengthens the text |
| Text.TrimIsInfix | src/pages/UploadData.tsx:30 | what `trim` keeps is a contiguous piece of the text; everything before and after it is whitespace |
| Text.TrimIdentity | src/pages/UploadData.tsx:30 | `trim` leaves a text unchanged exactly when neither end is whitespace |
| Text.TrimIsPadded | src/pages/UploadData.tsx:30 | the text is its trim with whitespace, possibly none, on either side |
| Text.TrimOfWindow | src/pages/UploadData.tsx:30 | a window of the text that has no whitespace at either end, with only whitespace outside it, is exactly what `trim` keeps |
| Text.TrimOfPadded | src/pages/UploadData.tsx:30 | whitespace put around text without surrounding whitespace is exactly what `trim` removes again |
| Text.PaddedTrimmedIsTrim | src/pages/UploadData.tsx:30 | text with no whitespace at either end that the input holds between whitespace is the input's trim: the padding pins the trim |
| Text.TrimDropsTrailingWhitespace | src/pages/UploadData.tsx:30 | a trailing whitespace character, such as a CR, does not change the trimmed text |
| Text.TrimDropsLeadingWhitespace | src/pages/UploadData.tsx:30 | a leading whitespace character does not change the trimmed text |
| Text.AllWhitespaceTrimsAway | src/pages/UploadData.tsx:30 | text made only of whitespace trims to the empty string |
| Text.TrimAvoids | src/pages/UploadData.tsx:30 | `trim` adds no character: one absent from the text is absent from its trim |
| Text.Split | src/pages/UploadData.tsx:29-30 | `split` returns at least one piece, and no piece contains the separator |
| Text.SplitCount | src/pages/UploadData.tsx:29-30 | `split` gives one more piece than there are separators |
| Text.JoinSplit | src/pages/UploadData.tsx:29-30 | joining the pieces of a split with the separator restores the text |
| Text.SplitJoin | src/pages/UploadData.tsx:30 | splitting a join of separator-free pieces gives the pieces back |
| Text.SplitAtSeparator | src/pages/ConflictAlerts.tsx:39 | a separator splits the text into the pieces before it, then the pieces after it |
| Text.SplitAppend | src/pages/UploadData.tsx:30 | appending a non-separator character extends only the last piece |
| Numerals.NatToString | src/pages/ConflictAlerts.tsx:46-47 | a printed natural number is a non-empty run of digits with no leading zero |
| Numerals.NatRoundTrip | src/pages/ConflictAlerts.tsx:46-47 | reading a printed natural number back gives the number |
| Numerals.IntRoundTrip | src/pages/DelayPrediction.tsx:264 | reading a printed integer back gives the integer; distinct integers print differently |
| Numerals.NumberOfTrimmed | src/pages/ConflictAlerts.tsx:39 | on text without surrounding whitespace, `Number` is finite exactly for the empty text and for an optional sign followed by one or more digits, and such a numeral reads as its signed value; everything else is NaN |
| Numerals.NumeralGrammar | src/pages/ConflictAlerts.tsx:39 | a numeral's sign is its first character exactly when that character is not a digit, so each numeral splits into sign and digits in one way only |
| Numerals.ToNumber | src/pages/ConflictAlerts.tsx:39 | `Number` ignores surrounding whitespace, reads blank text as 0 and a signed digit string as its value, and is NaN for every other text |
| Numerals.ToNumberExamples | src/pages/ConflictAlerts.tsx:39 | "a1" is NaN, and " -7 " reads as -7 |
| Numerals.DigitsToNumber | src/pages/ConflictAlerts.tsx:39 | `Number` reads a string of digits as its decimal value, leading zeros allowed |
| Numerals.ToNumberOfPrinted | src/pages/ConflictAlerts.tsx:39 | `Number` reads back every integer that `String` prints |
| Numerals.MinutesText | src/pages/Rerouting.tsx:96 | a minutes label ends in " min" and starts with "+" for a positive value and "-" for a negative one |
| Numerals.MinutesRoundTrip | src/pages/Rerouting.tsx:96 | a minutes label reads back as exactly the signed value printed |
| MockData.TrainStatusColor | src/lib/mockData.ts:273-281 | "active" is success, "on_time" primary, "delayed" warning and "stopped" destructive, each exactly; the muted default is taken exactly when the string names no train status |
| MockData.TrainStatusColorsDistinct | src/lib/mockData.ts:273-281 | the four statuses get four different colours, none of them muted |
| MockData.ConflictSeverityColor | src/lib/mockData.ts:283-291 | medium and high share the warning colour; only critical is destructive; everything else is muted |
| MockData.LowSeverityLooksUnknown | src/lib/mockData.ts:285-289 | low severity has the same colour as an unknown severity |
| MockData.RoundHalfUp | src/lib/mockData.ts:303 | `Math.round` of a quotient is the nearest integer, with ties rounded up |
| MockData.RoundedMean | src/lib/mockData.ts:297-303 | the rounded mean exists exactly for a non-empty list and is within one half of the true mean |
| MockData.MeanTenths | src/lib/mockData.ts:295-301 | the mean delay, rounded to tenths, is within one twentieth of the true mean |
| MockData.CalculateKpis | src/lib/mockData.ts:293-305 | the active-train figure tallies the active and the on-time trains, and with the halted ones makes up all trains; the mean delay in tenths exists exactly for a non-empty list and is the nearest tenth to the true mean; the active-conflict figure tallies the conflicts whose status is active, and is 0 exactly when none is; the throughput is the occupancy mean, rounded |
| MockData.RunningOrHalted | src/lib/mockData.ts:294 | every train is running (active or on time) or halted, never both |
| MockData.RunningTally | src/lib/mockData.ts:294 | the running trains number the active trains plus the on-time trains |
| MockData.SumOfPercentages | src/lib/mockData.ts:297 | percentages sum to between 0 and 100 per element |
| MockData.RoundedMeanWithin | src/lib/mockData.ts:303 | a rounded mean of values within a range stays in that range |
| MockData.ThroughputIsPercentage | src/lib/mockData.ts:297-303 | when every occupancy is a percentage, so is the throughput |
| MockData.FixtureConflictsNameKnownTrains | src/lib/mockData.ts:197-231 | every train a fixture conflict names is a fixture train |
| MockData.FixtureTrainsNameKnownStations | src/lib/mockData.ts:68-153 | every station a fixture train is at or heading to is a fixture station |
| MockData.FixtureRunningTrains | src/lib/mockData.ts:77-153 | three fixture trains are running |
| MockData.FixtureActiveConflicts | src/lib/mockData.ts:197-231 | one fixture conflict is active |
| MockData.FixtureMeans | src/lib/mockData.ts:295-303 | on the fixtures the mean delay is 5.6 and the mean occupancy rounds to 74 |
| MockData.FixtureKpis | src/lib/mockData.ts:293-305 | on the fixtures the key figures are 3 trains, 5.6 minutes, 1 conflict and 74 |
| UploadData.Lines | src/pages/UploadData.tsx:29 | the kept lines are non-empty and contain no newline |
| UploadData.FirstLine | src/pages/UploadData.tsx:29-30 | `lines[0]` is absent exactly when every newline-separated piece is empty, and is otherwise the first non-empty piece |
| UploadData.Columns | src/pages/UploadData.tsx:30 | one column per comma-separated piece of the line, one more than there are commas; the i-th column is the i-th piece with whitespace around it removed, so it has none at either end and no comma |
| UploadData.Header | src/pages/UploadData.tsx:29-30 | no header exactly when there is no first line; otherwise the i-th name is the i-th comma-separated piece of the first line with whitespace around it removed, with no whitespace at either end and no comma |
| UploadData.MissingFields | src/pages/UploadData.tsx:52 | a required field is reported missing exactly when the header lacks it |
| UploadData.Validate | src/pages/UploadData.tsx:27-64 | "could not parse" exactly when no header line exists; valid exactly when every required column is present; otherwise the toast lists the absent ones as `requiredFields.filter` gives them, and the list is non-empty |
| UploadData.Judge | src/pages/UploadData.tsx:40-55 | a header that was read is never judged unparseable; it conforms exactly when every required field is in it, and otherwise the missing fields are reported |
| UploadData.MissingInRequiredOrder | src/pages/UploadData.tsx:32-38 | missing fields are reported in the required order, each once |
| UploadData.NoHeaderIffBlank | src/pages/UploadData.tsx:29-30 | there is no header exactly when the input is made only of newlines, the empty input included |
| UploadData.SkipsLeadingNewline | src/pages/UploadData.tsx:29 | blank lines before the header are skipped |
| UploadData.FirstLineIsLeadingLine | src/pages/UploadData.tsx:29-30 | a non-empty first line ended by a newline or by the end of the input is the header line |
| UploadData.CarriageReturnIgnored | src/pages/UploadData.tsx:29-30 | a CRLF line end reads the same header as an LF one |
| UploadData.ColumnsIgnoreTrailingWhitespace | src/pages/UploadData.tsx:30 | trailing whitespace on the header line does not change the columns |
| UploadData.VerdictDependsOnColumnSet | src/pages/UploadData.tsx:40 | column order, repeats and extra columns do not change the verdict |
| UploadData.ColumnsOfPaddedJoin | src/pages/UploadData.tsx:30 | names written with whitespace around them and joined by commas read back as the bare names |
| UploadData.SpacedColumnsReadNames | src/pages/UploadData.tsx:30 | the line "x , y" reads as the two columns x and y |
| UploadData.SpacedHeaderReadsNames | src/pages/UploadData.tsx:29-30 | a first line "x , y" gives the header [x, y] |
| UploadData.HeaderOfJoinedColumns | src/pages/UploadData.tsx:29-30 | a header written by joining column names with commas reads back as those names |
| UploadData.DemoCsvConforms | src/pages/UploadData.tsx:121-131 | the demo data, which the page marks valid without checking it, does pass the check |
| UploadData.SampleCsvConforms | src/pages/UploadData.tsx:141-145 | the downloadable template passes the check |
| UploadData.TwoColumnHeaderReportsTheRest | src/pages/UploadData.tsx:52 | a header with two of the five columns reports the other three, in order |
| UploadData.StatusOf | src/pages/UploadData.tsx:43-57 | the badge is valid exactly for a conforming verdict, and is never left unset |
| UploadData.ChooseFile | src/pages/UploadData.tsx:67-80 | no file changes nothing; a file is selected, shown and checked, and the demo flag and the upload state stay as they were |
| UploadData.EditText | src/pages/UploadData.tsx:253-256 | an edit shows the new text and checks it, and leaves the selected file, the demo flag and the upload state as they were |
| UploadData.GenerateDemo | src/pages/UploadData.tsx:121-138 | the demo button shows the demo text with the valid badge and the demo flag set, and selects the file `demo_schedule.csv` holding that text; it leaves loading alone, and the valid badge is earned because the demo text conforms |
| UploadData.LoadEnabled | src/pages/UploadData.tsx:266 | "Load into System" is enabled exactly when the `disabled` test fails: a valid badge, a selected file and no upload in flight |
| UploadData.BeginLoad | src/pages/UploadData.tsx:83-86 | without a file nothing happens; otherwise the upload is in flight and nothing else changes |
| UploadData.OrElse | src/pages/UploadData.tsx:105 | the JavaScript or-operator on a string gives the string when it is present and non-empty, and the fallback in every other case |
| UploadData.Classify | src/pages/UploadData.tsx:97-114 | success names the file; any other status gives the detail or the default text; a thrown error gives its message or "Unexpected error" |
| UploadData.FinishLoad | src/pages/UploadData.tsx:115-117 | whatever the reply, the loading flag is cleared and the reply is reported |
| UploadData.Step | src/pages/UploadData.tsx:67-138 | while an upload is in flight the file input, the demo button and the load button change nothing, and otherwise the file input and the demo button act as `handleFileUpload` and `generateDemoData`; only those two controls change the selected file; an edit shows and checks the new text and touches nothing else; pressing load sets only the loading flag, and only when enabled; a reply to an upload in flight clears only the loading flag, and any other reply changes nothing |
| UploadData.StepKeepsConsistent | src/pages/UploadData.tsx:67-138 | every event keeps the badge equal to the verdict on the text shown, and keeps a file attached to an upload in flight |
| UploadData.InitialConsistent | src/pages/UploadData.tsx:19-24 | the initial page is consistent |
| UploadData.EnabledMeansShownTextConforms | src/pages/UploadData.tsx:266 | an enabled load button means the text shown passes the check |
| UploadData.LoadRoundTrip | src/pages/UploadData.tsx:83-118 | pressing an enabled button starts an upload, and the reply restores the page and reports the outcome |
| UploadData.EditedTextCanMaskInvalidFile | src/pages/UploadData.tsx:253-256 | as written, a file that fails the check can be uploaded after a valid edit |
| UploadData.EditTextCorrected | src/pages/UploadData.tsx:253-256 | the corrected edit checks the text and makes the selected file hold it |
| UploadData.StepCorrectedKeepsConsistent | src/pages/UploadData.tsx:67-138 | with the corrected edit, the selected file always holds the text shown |
| UploadData.CorrectedUploadsCheckedFile | src/pages/UploadData.tsx:266 | with the corrected edit, an enabled button uploads a file that passes the check |
| ConflictAlerts.FilterConflicts | src/pages/ConflictAlerts.tsx:31-34 | "all" shows every conflict; one status shows exactly the conflicts with it, in list order |
| ConflictAlerts.FilterConflictsMultiplicity | src/pages/ConflictAlerts.tsx:31-34 | the status filter keeps every copy of a matching conflict and nothing else |
| ConflictAlerts.BadgeCount | src/pages/ConflictAlerts.tsx:61-65 | a badge counts at most the conflicts shown, and under "all" counts the occurrences of its status in the whole list |
| ConflictAlerts.BadgesFollowFilter | src/pages/ConflictAlerts.tsx:61-65 | under a one-status filter, that status's badge counts everything shown and the other badge reads 0 |
| ConflictAlerts.Summarize | src/pages/ConflictAlerts.tsx:224-260 | the critical and high cards count the occurrences of those severities in the whole list, and the active and resolved cards those statuses, whatever the filter |
| ConflictAlerts.BadgesMatchSummaryUnfiltered | src/pages/ConflictAlerts.tsx:61-65 | under "all" the badges equal the Active and Resolved summary cards |
| ConflictAlerts.ParseClock | src/pages/ConflictAlerts.tsx:39 | the time is read exactly when there is a minutes piece and both pieces read as numbers, and then hours and minutes are those `Number` readings; otherwise it is NaN |
| ConflictAlerts.ParseClockOfDigits | src/pages/ConflictAlerts.tsx:39 | "HH:MM" made of digits reads as those two numbers |
| ConflictAlerts.MinutesUntil | src/pages/ConflictAlerts.tsx:40-43 | the difference is the number of whole minutes to the target time, rounded down |
| ConflictAlerts.MinutesUntilWholeMinute | src/pages/ConflictAlerts.tsx:40-43 | from a whole-minute "now" the difference is exact |
| ConflictAlerts.FormatCountdown | src/pages/ConflictAlerts.tsx:45-47 | the label is "Overdue" exactly for a negative difference |
| ConflictAlerts.CountdownRoundTrip | src/pages/ConflictAlerts.tsx:45-47 | the labels lose nothing but the sign: "Overdue" for a negative difference, otherwise exactly the minutes |
| ConflictAlerts.TimeUntilConflict | src/pages/ConflictAlerts.tsx:36-48 | an unreadable time gives "NaNh NaNm"; "Overdue" exactly when the time was read and lies before now; otherwise the label reads back as the whole minutes until that time |
| ConflictAlerts.CountdownWithoutColon | src/pages/ConflictAlerts.tsx:39-47 | a time with no colon gives "NaNh NaNm" |
| ConflictAlerts.Actions | src/pages/ConflictAlerts.tsx:170-193 | "View Details" is always offered; apply, hold and reroute exactly for an active conflict |
| ConflictAlerts.EmptyState | src/pages/ConflictAlerts.tsx:205-211 | the empty card is shown exactly when no conflict passes the filter, with the filter's message |
| ConflictAlerts.EmptyMessageNamesFilter | src/pages/ConflictAlerts.tsx:211 | different filters give different empty-state messages |
| ConflictAlerts.FixtureResolvedFilter | src/pages/ConflictAlerts.tsx:31-65 | on the fixtures the "resolved" filter shows CF003 only, with badges 0 and 1 |
| ConflictAlerts.FixtureSummary | src/pages/ConflictAlerts.tsx:224-260 | the fixture summary is 0 critical, 1 high, 1 active and 1 resolved |
| ConflictAlerts.FixtureCountdowns | src/pages/ConflictAlerts.tsx:36-48 | at 14:45 CF001 is "7 min" away and CF003 "30 min"; at 15:00 CF001 is "Overdue" |
| DelayPrediction.Predict | src/pages/DelayPrediction.tsx:35-50 | the i-th train keeps its id, name and delay, and has an estimate exactly when the table has an i-th row |
| DelayPrediction.EstimateFollowsPosition | src/pages/DelayPrediction.tsx:48 | the estimate depends on the position alone, not on the train |
| DelayPrediction.RiskTone | src/pages/DelayPrediction.tsx:52-70 | low is green, medium and high amber, critical red, and a missing level muted |
| DelayPrediction.OnOneCard | src/pages/DelayPrediction.tsx:176-204 | a prediction lands on a risk card exactly when it has an estimate |
| DelayPrediction.CountRisks | src/pages/DelayPrediction.tsx:176-204 | the critical card counts the critical predictions, the medium/high card the high ones plus the medium ones, and the low card the low ones; together they count every prediction that has an estimate |
| DelayPrediction.CardTallies | src/pages/DelayPrediction.tsx:176-204 | each card's filter has as many entries as there are predictions of its risk levels |
| DelayPrediction.CardTonesMatchRiskTone | src/pages/DelayPrediction.tsx:173-201 | each card's dot has the colour of the predictions counted on it |
| DelayPrediction.CardsCoverShortLists | src/pages/DelayPrediction.tsx:35-50 | with at most five trains every train is on a card |
| DelayPrediction.AverageConfidence | src/pages/DelayPrediction.tsx:218 | the average exists exactly when the list is non-empty and every prediction has an estimate, and is the rounded mean |
| DelayPrediction.AverageConfidenceIsPercentage | src/pages/DelayPrediction.tsx:218 | an average of percentages is a percentage |
| DelayPrediction.DelayText | src/pages/DelayPrediction.tsx:256-271 | the label is "On time" exactly for a zero delay |
| DelayPrediction.DelayTrend | src/pages/DelayPrediction.tsx:256-268 | a rising icon for a positive delay, falling for a negative one, a clock for zero |
| DelayPrediction.DelayRoundTrip | src/pages/DelayPrediction.tsx:256-271 | the current-delay label reads back as the delay |
| DelayPrediction.ChangeText | src/pages/DelayPrediction.tsx:292-296 | "+" and the warning colour exactly when the prediction is worse than the current delay |
| DelayPrediction.ChangeRoundTrip | src/pages/DelayPrediction.tsx:295-296 | the change label reads back as the predicted minus the current delay |
| DelayPrediction.FixtureAverageConfidence | src/pages/DelayPrediction.tsx:218 | on the fixture trains the average confidence reads 87 |
| DelayPrediction.FixtureRiskCounts | src/pages/DelayPrediction.tsx:176-204 | on the fixture trains the cards read 1 critical, 2 medium-high and 2 low |
| DelayPrediction.SixthTrainHasNoEstimate | src/pages/DelayPrediction.tsx:35-50 | a sixth train has no estimate, and the average is then NaN |
| DelayPrediction.ModelBadge | src/pages/DelayPrediction.tsx:90-93 | the badge is filled and reads "ML Enabled" exactly when the ML switch is on; otherwise it is greyed |
| DelayPrediction.ModelBadgeShowsSwitch | src/pages/DelayPrediction.tsx:90-93 | the badge text alone tells the position of the ML switch |
| Rerouting.FeasibilityTone | src/pages/Rerouting.tsx:81-85 | green from 90, amber from 70 up to 89, red below 70 |
| Rerouting.FeasibilityToneMonotone | src/pages/Rerouting.tsx:81-85 | a more feasible route never gets a worse badge |
| Rerouting.ApplyEnabledUnlessRed | src/pages/Rerouting.tsx:122 | "Apply Route" is enabled exactly when the badge is not red |
| Rerouting.TimeImpact | src/pages/Rerouting.tsx:93-97 | amber exactly for extra time; the label reads back as the signed extra minutes |
| Rerouting.ApplicableRoutes | src/pages/Rerouting.tsx:118-126 | the applicable routes are exactly the ids of the enabled options |
| Rerouting.FixtureTiers | src/pages/Rerouting.tsx:12-43 | the three fixture routes get green, amber and red, and only the first two may be applied |
| Rerouting.RecommendationIsMostFeasible | src/pages/Rerouting.tsx:144-158 | the route the comparison card recommends is the route of the most feasible option; the current route differs from the recommended route and from every option's route; and 75 plus its 8 extra minutes is the 83 shown |
| Rerouting.FixtureTimeImpacts | src/pages/Rerouting.tsx:93-97 | the fixture routes read "+8 min", "-3 min" and "+12 min" |

## Left out

- File reading (`FileReader`), `fetch`, `FormData`, toasts and the sample-template download are
  input and output. A file is its name and its text; a reply is a `Reply` value; the
  asynchronous `onload` is taken as happening at once.
- JSON uploads: the file input accepts `.json`, but the page only checks CSV headers. A JSON
  text is validated as CSV, exactly as the page does.
- CSS class strings are kept only as their colour tone. Icons, badge variants and layout are
  presentation.
- JavaScript numbers are IEEE doubles; the model uses unbounded integers. `Number` loses
  precision on integers above 2^53, and `String` prints numbers of 10^21 and more in exponent
  form. `NatToString` always prints every digit. All the counts, minutes and percentages on
  these pages are far below either bound.
- Numerals.ToNumber: reads only decimal integer text. Decimal points, exponents, hexadecimal
  `0x…`, binary `0b…` and octal `0o…` literals, and `Infinity` are read as NaN, because the
  fixture times are two-digit integers.
- ConflictAlerts.MinutesUntil: "now" is milliseconds since local midnight and daylight-saving
  changes are ignored. `setHours` with values so large that the date leaves the representable
  range (NaN in JavaScript) is not modelled.
- The `Date` object itself, and the "Detected" timestamp formatting
  with `toLocaleString`, are left out. The clock is a parameter.
- The "Sort by" select of the conflict page holds state that nothing reads, so it is not modelled.
- DelayPrediction.SixthTrainHasNoEstimate: with more trains than estimates the page calls
  `toUpperCase` on an undefined risk level and fails to render. The model gives such a train
  no estimate and does not model the failed render.
- The predicted-delay column prints "+" unconditionally (`src/pages/DelayPrediction.tsx:278`).
  Every estimate is positive, so this is not modelled separately.
- The model metrics on the prediction page are floating-point display constants. The
  auto-refresh switch holds state that nothing reads; the ML switch drives only the header
  badge, which is modelled.
- The extra distance of a route option is kept in tenths of a kilometre and is not printed.
  The apply toast, the "Preview on Map" button and the "Recent Reroutes" list are left out.
- The other pages (schedule optimizer, map, dashboard, admin settings, run history), the
  sidebar, the layout and the router are not part of this model.

## Findings

| source | as written | input that shows it | evidently intended | confidence | as-written member | corrected member |
|---|---|---|---|---|---|---|
| src/pages/UploadData.tsx:253-256 | editing the text area re-checks the edited text, but "Load into System" uploads the selected file, which the edit does not change | choose a file whose text is `platform\n` (badge: invalid), then paste the sample template into the text area (badge: valid); the button is enabled and uploads the file that failed the check | what is uploaded is what was checked: the edit also replaces the selected file's content | not executed | UploadData.EditedTextCanMaskInvalidFile | UploadData.CorrectedUploadsCheckedFile |

=== FILE: conflict_alerts.dfy ===
/** The conflict alerts page: the status filter over the conflict list, the
    badge and summary counts, the countdown to each conflict, the actions
    offered and the empty-state message. */
module ConflictAlerts {
  import opened Wrappers
  import opened Seqs
  import opened Text
  import opened Numerals
  import opened MockData

  // ------------------------------------------------------------------ status filter

  /** The filter selector: `'all'` or one conflict status. */
  datatype StatusFilter = All | Only(status: ConflictStatus)

  predicate Passes(f: StatusFilter, c: Conflict) {
    f.All? || StatusIs(f.status)(c)
  }

  /** `filteredConflicts`. */
  function FilterConflicts(conflicts: seq<Conflict>, f: StatusFilter): (r: seq<Conflict>)
    ensures f == All ==> r == conflicts
    ensures f.Only? ==> forall c :: c in r <==> c in conflicts && c.status == f.status
    ensures IsSubsequence(r, conflicts)
  {
    var p := (c: Conflict) => Passes(f, c);
    FilterIsSubsequence(conflicts, p);
    if f == All then
      FilterAll(conflicts, p);
      Filter(conflicts, p)
    else
      Filter(conflicts, p)
  }

  /** Filtering keeps every occurrence of a matching conflict and no other. */
  lemma FilterConflictsMultiplicity(conflicts: seq<Conflict>, s: ConflictStatus, c: Conflict)
    ensures multiset(FilterConflicts(conflicts, Only(s)))[c] == if c.status == s then multiset(conflicts)[c] else 0
  {
    FilterMultiplicity(conflicts, (x: Conflict) => Passes(Only(s), x), c);
  }

  /** The count on a header badge: conflicts of status `s` among those shown. */
  function BadgeCount(conflicts: seq<Conflict>, f: StatusFilter, s: ConflictStatus): (n: nat)
    ensures n <= |FilterConflicts(conflicts, f)|
    ensures f == All ==> n == CountKey(conflicts, ConflictStatusOf, s)
  {
    var shown := FilterConflicts(conflicts, f);
    FilterCountsKey(shown, ConflictStatusOf, s, StatusIs(s));
    |Filter(shown, StatusIs(s))|
  }

  /** The badges count the shown conflicts only: under a filter for one status
      the badge of that status counts everything shown and every other badge is 0. */
  lemma BadgesFollowFilter(conflicts: seq<Conflict>, shown: ConflictStatus, s: ConflictStatus)
    ensures s == shown ==> BadgeCount(conflicts, Only(shown), s) == |FilterConflicts(conflicts, Only(shown))|
    ensures s != shown ==> BadgeCount(conflicts, Only(shown), s) == 0
  {
    var r := FilterConflicts(conflicts, Only(shown));
    assert forall i :: 0 <= i < |r| ==> r[i].status == shown by {
      forall i | 0 <= i < |r| ensures r[i].status == shown {
        assert r[i] in r;
      }
    }
    if s == shown {
      FilterAll(r, StatusIs(s));
    } else {
      FilterNone(r, StatusIs(s));
    }
  }

  /** The summary cards count over the whole list whatever the filter: critical
      and high severity, active and resolved status. */
  datatype QuickStats = QuickStats(critical: nat, high: nat, active: nat, resolved: nat)

  /** The test `c.severity === v` of the summary cards. */
  function SeverityIs(v: Severity): Conflict -> bool {
    (c: Conflict) => c.severity == v
  }

  /** The summary cards: each counts the occurrences of its severity, or of its
      status, in the whole conflict list. */
  function Summarize(conflicts: seq<Conflict>): (q: QuickStats)
    ensures q.critical == CountKey(conflicts, ConflictSeverityOf, Critical)
    ensures q.high == CountKey(conflicts, ConflictSeverityOf, High)
    ensures q.active == CountKey(conflicts, ConflictStatusOf, ConflictStatus.Active)
    ensures q.resolved == CountKey(conflicts, ConflictStatusOf, Resolved)
    ensures q.critical + q.high <= |conflicts|
    ensures q.active + q.resolved <= |conflicts|
  {
    var critical, high := SeverityIs(Critical), SeverityIs(High);
    var active, resolved := StatusIs(ConflictStatus.Active), StatusIs(Resolved);
    FilterCountsKey(conflicts, ConflictSeverityOf, Critical, critical);
    FilterCountsKey(conflicts, ConflictSeverityOf, High, high);
    FilterCountsKey(conflicts, ConflictStatusOf, ConflictStatus.Active, active);
    FilterCountsKey(conflicts, ConflictStatusOf, Resolved, resolved);
    FilterDisjointCount(conflicts, critical, high, (c: Conflict) => critical(c) || high(c));
    FilterDisjointCount(conflicts, active, resolved, (c: Conflict) => active(c) || resolved(c));
    QuickStats(|Filter(conflicts, critical)|, |Filter(conflicts, high)|,
      |Filter(conflicts, active)|, |Filter(conflicts, resolved)|)
  }

  /** Under the "all" filter the header badges agree with the Active and
      Resolved summary cards. */
  lemma BadgesMatchSummaryUnfiltered(conflicts: seq<Conflict>)
    ensures BadgeCount(conflicts, All, ConflictStatus.Active) == Summarize(conflicts).active
    ensures BadgeCount(conflicts, All, Resolved) == Summarize(conflicts).resolved
  {
  }

  // ------------------------------------------------------------------ countdown

  const MillisPerMinute := 60000

  /** `predictedTime.split(':').map(Number)` taken as hours and minutes; `None`
      when either is NaN, a missing minutes part included. */
  function ParseClock(predictedTime: string): (r: Option<(int, int)>)
    ensures r.Some? ==> ToNumber(Split(predictedTime, ':')[0]) == Finite(r.value.0)
    ensures r.Some? ==> |Split(predictedTime, ':')| > 1 && ToNumber(Split(predictedTime, ':')[1]) == Finite(r.value.1)
    ensures r.Some? <==> var parts := Split(predictedTime, ':');
      |parts| > 1 && ToNumber(parts[0]).Finite? && ToNumber(parts[1]).Finite?
  {
    var parts := Split(predictedTime, ':');
    var hours := ToNumber(parts[0]);
    var minutes := if |parts| > 1 then ToNumber(parts[1]) else NaN;
    if hours.Finite? && minutes.Finite? then Some((hours.value, minutes.value)) else None
  }

  /** Whole minutes from `nowMs` (milliseconds since local midnight) to today at
      `hours:minutes:00.000`, rounded down; `setHours` carries hours and minutes
      outside their usual ranges into neighbouring days linearly. */
  function MinutesUntil(nowMs: int, hours: int, minutes: int): (d: int)
    ensures d * MillisPerMinute <= (hours * 60 + minutes) * MillisPerMinute - nowMs < (d + 1) * MillisPerMinute
  {
    ((hours * 60 + minutes) * MillisPerMinute - nowMs) / MillisPerMinute
  }

  /** When "now" falls on a whole minute the difference is exact. */
  lemma MinutesUntilWholeMinute(nowMinute: int, hours: int, minutes: int)
    ensures MinutesUntil(nowMinute * MillisPerMinute, hours, minutes) == hours * 60 + minutes - nowMinute
  {
    var t := hours * 60 + minutes;
    assert t * MillisPerMinute - nowMinute * MillisPerMinute == (t - nowMinute) * MillisPerMinute;
  }

  /** The label for a minute difference. */
  function FormatCountdown(d: int): (text: string)
    ensures text == "Overdue" <==> d < 0
  {
    if d < 0 then "Overdue"
    else
      var t := if d < 60 then NatToString(d) + " min"
               else NatToString(d / 60) + "h " + NatToString(d % 60) + "m";
      assert IsDigit(t[0]);
      t
  }

  /** `getTimeUntilConflict` with the clock passed in. A time that does not read
      as two numbers gives NaN, which fails both comparisons and prints as "NaN". */
  function TimeUntilConflict(nowMs: int, predictedTime: string): (text: string)
    ensures ParseClock(predictedTime) == None ==> text == "NaNh NaNm"
    ensures text == "Overdue" <==> var c := ParseClock(predictedTime);
      c.Some? && (c.value.0 * 60 + c.value.1) * MillisPerMinute < nowMs
    ensures ParseClock(predictedTime).Some? ==>
      var (hours, minutes) := ParseClock(predictedTime).value;
      var d := MinutesUntil(nowMs, hours, minutes);
      ReadCountdown(text) == Some(if d < 0 then Overdue else In(d))
  {
    match ParseClock(predictedTime)
    case None => "NaNh NaNm"
    case Some((hours, minutes)) =>
      CountdownRoundTrip(MinutesUntil(nowMs, hours, minutes));
      FormatCountdown(MinutesUntil(nowMs, hours, minutes))
  }

  /** What a countdown label says. */
  datatype Countdown = Overdue | In(minutes: nat)

  /** Reads a countdown label back: "Overdue", "<m> min" with m below 60, or
      "<h>h <m>m" with h at least 1 and m below 60. */
  function ReadCountdown(text: string): Option<Countdown> {
    if text == "Overdue" then Some(Overdue)
    else if EndsWith(text, " min") then
      match ParseNat(text[..|text| - 4])
      case Some(m) => if m < 60 then Some(In(m)) else None
      case None => None
    else if EndsWith(text, "m") then
      var parts := Split(text[..|text| - 1], 'h');
      if |parts| == 2 && |parts[1]| > 0 && parts[1][0] == ' ' then
        match (ParseNat(parts[0]), ParseNat(parts[1][1..]))
        case (Some(h), Some(m)) => if h >= 1 && m < 60 then Some(In(h * 60 + m)) else None
        case _ => None
      else None
    else None
  }

  lemma DigitsHaveNo(s: string, c: char)
    requires AllDigits(s) && !IsDigit(c)
    ensures c !in s
  {
  }

  /** Reading a text gives back "overdue" for a negative difference and the
      exact number of minutes otherwise: the labels lose nothing else. */
  lemma CountdownRoundTrip(d: int)
    ensures ReadCountdown(FormatCountdown(d)) == Some(if d < 0 then Overdue else In(d))
  {
    var text := FormatCountdown(d);
    if 0 <= d < 60 {
      var a := NatToString(d);
      assert text == a + " min";
      assert text != "Overdue" by { assert IsDigit(text[0]); }
      assert EndsWith(text, " min");
      assert text[..|text| - 4] == a;
      NatRoundTrip(d);
    } else if d >= 60 {
      var a := NatToString(d / 60);
      var b := NatToString(d % 60);
      assert text == a + "h " + b + "m";
      assert text != "Overdue" by { assert IsDigit(text[0]); }
      assert !EndsWith(text, " min") by { assert text[|text| - 1] == 'm'; }
      assert EndsWith(text, "m");
      var body := text[..|text| - 1];
      assert body == a + ['h'] + (" " + b);
      SplitAtSeparator(a, " " + b, 'h');
      DigitsHaveNo(a, 'h');
      DigitsHaveNo(b, 'h');
      assert 'h' !in " " + b;
      SplitWithoutSeparator(a, 'h');
      SplitWithoutSeparator(" " + b, 'h');
      var parts := Split(body, 'h');
      assert parts == [a, " " + b];
      assert parts[1][1..] == b;
      NatRoundTrip(d / 60);
      NatRoundTrip(d % 60);
    }
  }

  /** A time whose colon splits it into two numerals is read as those numbers. */
  lemma ParseClockOfParts(t: string, hh: string, mm: string)
    requires Split(t, ':') == [hh, mm]
    requires ToNumber(hh).Finite? && ToNumber(mm).Finite?
    ensures ParseClock(t) == Some((ToNumber(hh).value, ToNumber(mm).value))
  {
  }

  /** A well-formed `HH:MM` (digits around one colon) is read as those two numbers. */
  lemma ParseClockOfDigits(hh: string, mm: string)
    requires AllDigits(hh) && AllDigits(mm)
    ensures ParseClock(hh + ":" + mm) == Some((DigitsValue(hh), DigitsValue(mm)))
  {
    SplitClock(hh, mm);
    DigitsToNumber(hh);
    DigitsToNumber(mm);
    ParseClockOfParts(hh + ":" + mm, hh, mm);
  }

  lemma SplitClock(hh: string, mm: string)
    requires AllDigits(hh) && AllDigits(mm)
    ensures Split(hh + ":" + mm, ':') == [hh, mm]
  {
    DigitsHaveNo(hh, ':');
    DigitsHaveNo(mm, ':');
    assert hh + ":" + mm == hh + [':'] + mm;
    SplitAtSeparator(hh, mm, ':');
    SplitWithoutSeparator(hh, ':');
    SplitWithoutSeparator(mm, ':');
  }

  // ------------------------------------------------------------------ actions and empty state

  datatype Action = ApplyResolution | HoldTrain | RerouteTrain | ViewDetails

  /** The buttons under a conflict: the three resolution actions only while it
      is active, "View Details" always. */
  function Actions(c: Conflict): (r: seq<Action>)
    ensures ViewDetails in r
    ensures ApplyResolution in r <==> c.status == ConflictStatus.Active
    ensures HoldTrain in r <==> c.status == ConflictStatus.Active
    ensures RerouteTrain in r <==> c.status == ConflictStatus.Active
  {
    (if c.status == ConflictStatus.Active then [ApplyResolution, HoldTrain, RerouteTrain] else []) + [ViewDetails]
  }

  /** The message on the empty-state card. */
  function EmptyMessage(f: StatusFilter): string {
    match f
    case All => "All systems are running smoothly!"
    case Only(s) => "No " + ConflictStatusName(s) + " conflicts at this time."
  }

  /** The empty-state card, shown exactly when no conflict passes the filter. */
  function EmptyState(conflicts: seq<Conflict>, f: StatusFilter): (r: Option<string>)
    ensures r.Some? <==> forall c :: c in conflicts ==> !Passes(f, c)
    ensures r.Some? ==> r.value == EmptyMessage(f)
  {
    var shown := FilterConflicts(conflicts, f);
    if |shown| != 0 then
      assert shown[0] in shown;
      None
    else
      Some(EmptyMessage(f))
  }

  /** Different filters give different empty-state messages. */
  lemma EmptyMessageNamesFilter(f: StatusFilter, g: StatusFilter)
    requires EmptyMessage(f) == EmptyMessage(g)
    ensures f == g
  {
    var m := EmptyMessage(f);
    assert m[0] == (if f.All? then 'A' else 'N');
    assert m[0] == (if g.All? then 'A' else 'N');
    if f.Only? && g.Only? {
      assert m[3] == ConflictStatusName(f.status)[0];
      assert m[3] == ConflictStatusName(g.status)[0];
    }
  }

  // ------------------------------------------------------------------ fixtures

  /** On the fixtures under the "resolved" filter only CF003 is shown, so the
      Active badge reads 0 and the Resolved badge 1. */
  lemma FixtureResolvedFilter()
    ensures FilterConflicts(MockConflicts, Only(Resolved)) == [MockConflicts[2]]
    ensures BadgeCount(MockConflicts, Only(Resolved), ConflictStatus.Active) == 0
    ensures BadgeCount(MockConflicts, Only(Resolved), Resolved) == 1
  {
    var cs := MockConflicts;
    var p := (c: Conflict) => Passes(Only(Resolved), c);
    assert !p(cs[0]) && !p(cs[1]) && p(cs[2]);
    assert Filter(cs[2..], p) == [cs[2]];
    assert Filter(cs[1..], p) == [cs[2]];
    BadgesFollowFilter(cs, Resolved, ConflictStatus.Active);
    BadgesFollowFilter(cs, Resolved, Resolved);
  }

  lemma ClockOf1452(t: string)
    requires t == "14:52"
    ensures ParseClock(t) == Some((14, 52))
  {
    var hh, mm := t[..2], t[3..];
    assert hh == "14" && mm == "52";
    assert t == hh + ":" + mm;
    ParseClockOfDigits(hh, mm);
    assert DigitsValue("14") == 14;
    assert DigitsValue("52") == 52;
  }

  lemma ClockOf1515(t: string)
    requires t == "15:15"
    ensures ParseClock(t) == Some((15, 15))
  {
    var hh, mm := t[..2], t[3..];
    assert hh == "15" && mm == "15";
    assert t == hh + ":" + mm;
    ParseClockOfDigits(hh, mm);
    assert DigitsValue("15") == 15;
  }

  /** The countdown to a parsed clock time from a whole-minute "now". */
  lemma CountdownAt(nowMinute: int, t: string, hours: int, minutes: int)
    requires ParseClock(t) == Some((hours, minutes))
    ensures TimeUntilConflict(nowMinute * MillisPerMinute, t) == FormatCountdown(hours * 60 + minutes - nowMinute)
  {
    var nowMs := nowMinute * MillisPerMinute;
    assert TimeUntilConflict(nowMs, t) == FormatCountdown(MinutesUntil(nowMs, hours, minutes));
    MinutesUntilWholeMinute(nowMinute, hours, minutes);
  }

  lemma FixtureLabels()
    ensures FormatCountdown(7) == "7 min"
    ensures FormatCountdown(30) == "30 min"
  {
    assert NatToString(7) == "7";
    assert NatToString(30) == "30";
  }

  lemma FixtureCriticalAndHigh()
    ensures |Filter(MockConflicts, SeverityIs(Critical))| == 0
    ensures |Filter(MockConflicts, SeverityIs(High))| == 1
  {
    var cs := MockConflicts;
    var critical, high := SeverityIs(Critical), SeverityIs(High);
    assert !critical(cs[0]) && !critical(cs[1]) && !critical(cs[2]);
    assert high(cs[0]) && !high(cs[1]) && !high(cs[2]);
    assert |Filter(cs[2..], critical)| == 0 && |Filter(cs[1..], critical)| == 0;
    assert |Filter(cs[2..], high)| == 0 && |Filter(cs[1..], high)| == 0;
  }

  lemma FixtureResolved()
    ensures |Filter(MockConflicts, StatusIs(Resolved))| == 1
  {
    var cs := MockConflicts;
    var resolved := StatusIs(Resolved);
    assert !resolved(cs[0]) && !resolved(cs[1]) && resolved(cs[2]);
    assert |Filter(cs[2..], resolved)| == 1 && |Filter(cs[1..], resolved)| == 1;
  }

  /** The fixture summary: no critical conflict, one high, one active, one resolved. */
  lemma FixtureSummary()
    ensures Summarize(MockConflicts) == QuickStats(0, 1, 1, 1)
  {
    FixtureCriticalAndHigh();
    FixtureActiveConflicts();
    FixtureResolved();
  }

  /** At 14:45 the CF001 conflict at "14:52" is 7 minutes away and CF003 at
      "15:15" is 30; by 15:00 CF001 is overdue. */
  lemma FixtureCountdowns(first: string, third: string)
    requires first == MockConflicts[0].predictedTime && third == MockConflicts[2].predictedTime
    ensures TimeUntilConflict(885 * MillisPerMinute, first) == "7 min"
    ensures TimeUntilConflict(885 * MillisPerMinute, third) == "30 min"
    ensures TimeUntilConflict(900 * MillisPerMinute, first) == "Overdue"
  {
    ClockOf1452(first);
    ClockOf1515(third);
    CountdownAt(885, first, 14, 52);
    CountdownAt(885, third, 15, 15);
    CountdownAt(900, first, 14, 52);
    FixtureLabels();
  }

  /** A time with no colon has no minutes part and reads as NaN. */
  lemma CountdownWithoutColon()
    ensures TimeUntilConflict(0, "1452") == "NaNh NaNm"
  {
    var t := "1452";
    SplitWithoutSeparator(t, ':');
  }
}

=== FILE: delay_prediction.dfy ===
/** The delay prediction page: a fixed table of model estimates joined to the
    trains by position, the risk tones, the risk summary cards, the average
    confidence and the delay and change labels. */
module DelayPrediction {
  import opened Wrappers
  import opened Seqs
  import opened Text
  import opened Numerals
  import opened MockData

  datatype RiskLevel = Low | Medium | High | Critical

  /** One row of the estimate table. */
  datatype Estimate = Estimate(predictedDelay: int, confidence: int, risk: RiskLevel, factors: seq<string>)

  /** The estimates, used for the trains in list order. */
  const Estimates: seq<Estimate> := [
    Estimate(8, 85, RiskLevel.Medium, ["Weather conditions", "Track congestion"]),
    Estimate(2, 92, RiskLevel.Low, ["Normal operations"]),
    Estimate(35, 78, RiskLevel.Critical, ["Equipment failure", "Cascade delays"]),
    Estimate(12, 88, RiskLevel.Medium, ["Platform occupancy", "Peak hour traffic"]),
    Estimate(6, 91, RiskLevel.Low, ["Minor signal delays"])
  ]

  /** A train with its estimate; a train past the end of the table gets none
      (the spread of `undefined` adds no fields). */
  datatype Prediction = Prediction(trainId: string, trainName: string, currentDelay: int, estimate: Option<Estimate>)

  /** `delayPredictions`: the i-th train takes the i-th estimate. */
  function Predict(trains: seq<Train>): (ps: seq<Prediction>)
    ensures |ps| == |trains|
    ensures forall i :: 0 <= i < |ps| ==>
      ps[i].trainId == trains[i].id && ps[i].trainName == trains[i].name && ps[i].currentDelay == trains[i].delay
    ensures forall i :: 0 <= i < |ps| ==> (ps[i].estimate.Some? <==> i < |Estimates|)
  {
    seq(|trains|, i requires 0 <= i < |trains| =>
      Prediction(trains[i].id, trains[i].name, trains[i].delay, if i < |Estimates| then Some(Estimates[i]) else None))
  }

  /** The join is by position only: two train lists of the same length get the
      same estimates whatever the trains are. */
  lemma EstimateFollowsPosition(a: seq<Train>, b: seq<Train>, i: int)
    requires |a| == |b| && 0 <= i < |a|
    ensures Predict(a)[i].estimate == Predict(b)[i].estimate
    ensures i < |Estimates| ==> Predict(a)[i].estimate == Some(Estimates[i])
  {
  }

  function RiskOf(p: Prediction): Option<RiskLevel> {
    if p.estimate.Some? then Some(p.estimate.value.risk) else None
  }

  /** `getRiskColor` and `getRiskBadgeColor`: both pick one tone per risk level,
      the muted one for a missing level. */
  function RiskTone(r: Option<RiskLevel>): (t: Tone)
    ensures t == Muted <==> r.None?
    ensures t == Success <==> r == Some(RiskLevel.Low)
    ensures t == Warning <==> r == Some(RiskLevel.Medium) || r == Some(RiskLevel.High)
    ensures t == Destructive <==> r == Some(RiskLevel.Critical)
  {
    match r
    case Some(Low) => Success
    case Some(Medium) => Warning
    case Some(High) => Warning
    case Some(Critical) => Destructive
    case None => Muted
  }

  // ------------------------------------------------------------------ summary cards

  predicate IsCritical(p: Prediction) {
    RiskOf(p) == Some(RiskLevel.Critical)
  }

  predicate IsMediumOrHigh(p: Prediction) {
    RiskOf(p) == Some(RiskLevel.High) || RiskOf(p) == Some(RiskLevel.Medium)
  }

  predicate IsLow(p: Prediction) {
    RiskOf(p) == Some(RiskLevel.Low)
  }

  predicate HasEstimate(p: Prediction) {
    p.estimate.Some?
  }

  lemma OnOneCard(p: Prediction)
    ensures HasEstimate(p) <==> IsCritical(p) || IsMediumOrHigh(p) || IsLow(p)
  {
    if p.estimate.Some? {
      match p.estimate.value.risk
      case Low =>
      case Medium =>
      case High =>
      case Critical =>
    }
  }

  datatype RiskCounts = RiskCounts(critical: nat, mediumHigh: nat, low: nat)

  /** The three risk cards: each counts the predictions of its risk levels, and
      every prediction with an estimate lands on exactly one. */
  function CountRisks(ps: seq<Prediction>): (c: RiskCounts)
    ensures c.critical == CountKey(ps, RiskOf, Some(RiskLevel.Critical))
    ensures c.mediumHigh == CountKey(ps, RiskOf, Some(RiskLevel.High)) + CountKey(ps, RiskOf, Some(RiskLevel.Medium))
    ensures c.low == CountKey(ps, RiskOf, Some(RiskLevel.Low))
    ensures c.critical + c.mediumHigh + c.low == |Filter(ps, HasEstimate)|
  {
    var upper := (p: Prediction) => IsCritical(p) || IsMediumOrHigh(p);
    FilterDisjointCount(ps, IsCritical, IsMediumOrHigh, upper);
    forall i | 0 <= i < |ps| ensures HasEstimate(ps[i]) == (upper(ps[i]) || IsLow(ps[i])) {
      OnOneCard(ps[i]);
    }
    FilterDisjointCount(ps, upper, IsLow, HasEstimate);
    CardTallies(ps);
    RiskCounts(|Filter(ps, IsCritical)|, |Filter(ps, IsMediumOrHigh)|, |Filter(ps, IsLow)|)
  }

  /** Each card's filter counts the predictions whose risk level it shows. */
  lemma CardTallies(ps: seq<Prediction>)
    ensures |Filter(ps, IsCritical)| == CountKey(ps, RiskOf, Some(RiskLevel.Critical))
    ensures |Filter(ps, IsMediumOrHigh)| ==
      CountKey(ps, RiskOf, Some(RiskLevel.High)) + CountKey(ps, RiskOf, Some(RiskLevel.Medium))
    ensures |Filter(ps, IsLow)| == CountKey(ps, RiskOf, Some(RiskLevel.Low))
  {
    var high := (p: Prediction) => RiskOf(p) == Some(RiskLevel.High);
    var medium := (p: Prediction) => RiskOf(p) == Some(RiskLevel.Medium);
    FilterDisjointCount(ps, high, medium, IsMediumOrHigh);
    FilterCountsKey(ps, RiskOf, Some(RiskLevel.High), high);
    FilterCountsKey(ps, RiskOf, Some(RiskLevel.Medium), medium);
    FilterCountsKey(ps, RiskOf, Some(RiskLevel.Critical), IsCritical);
    FilterCountsKey(ps, RiskOf, Some(RiskLevel.Low), IsLow);
  }

  /** The dot on each card has the tone a prediction on that card is shown in. */
  lemma CardTonesMatchRiskTone(p: Prediction)
    ensures IsCritical(p) <==> RiskTone(RiskOf(p)) == Destructive
    ensures IsMediumOrHigh(p) <==> RiskTone(RiskOf(p)) == Warning
    ensures IsLow(p) <==> RiskTone(RiskOf(p)) == Success
  {
  }

  /** With at most as many trains as estimates every train is on a card. */
  lemma CardsCoverShortLists(trains: seq<Train>)
    requires |trains| <= |Estimates|
    ensures var c := CountRisks(Predict(trains)); c.critical + c.mediumHigh + c.low == |trains|
  {
    FilterAll(Predict(trains), HasEstimate);
  }

  function Confidences(ps: seq<Prediction>): (xs: seq<int>)
    requires forall i :: 0 <= i < |ps| ==> ps[i].estimate.Some?
    ensures |xs| == |ps|
  {
    seq(|ps|, i requires 0 <= i < |ps| => ps[i].estimate.value.confidence)
  }

  /** The average confidence card: the rounded mean confidence, or NaN (`None`)
      for an empty list or when a prediction has no confidence to add. */
  function AverageConfidence(ps: seq<Prediction>): (r: Option<int>)
    ensures r.Some? <==> |ps| > 0 && forall i :: 0 <= i < |ps| ==> ps[i].estimate.Some?
    ensures r.Some? ==> 2 * |ps| * r.value - |ps| <= 2 * Sum(Confidences(ps)) < 2 * |ps| * r.value + |ps|
  {
    if |ps| > 0 && forall i :: 0 <= i < |ps| ==> ps[i].estimate.Some? then RoundedMean(Confidences(ps))
    else None
  }

  /** When every confidence is a percentage so is their average. */
  lemma AverageConfidenceIsPercentage(ps: seq<Prediction>)
    requires |ps| > 0 && forall i :: 0 <= i < |ps| ==> ps[i].estimate.Some?
    requires forall i :: 0 <= i < |ps| ==> 0 <= ps[i].estimate.value.confidence <= 100
    ensures AverageConfidence(ps).Some? && 0 <= AverageConfidence(ps).value <= 100
  {
    var xs := Confidences(ps);
    SumOfPercentages(xs);
    RoundedMeanWithin(Sum(xs), |ps|, AverageConfidence(ps).value, 0, 100);
  }

  // ------------------------------------------------------------------ labels

  /** A header badge's variant: filled (`"default"`) or greyed (`"secondary"`). */
  datatype BadgeVariant = Filled | Greyed

  /** The model-status badge in the page header, driven by the ML switch. */
  function ModelBadge(mlEnabled: bool): (b: (string, BadgeVariant))
    ensures b.1 == Filled <==> mlEnabled
    ensures |b.0| > 3 && b.0[..3] == "ML "
    ensures b.0 == "ML Enabled" <==> mlEnabled
  {
    if mlEnabled then ("ML Enabled", Filled) else ("ML Disabled", Greyed)
  }

  /** The badge text alone tells the switch's position. */
  lemma ModelBadgeShowsSwitch(a: bool, b: bool)
    ensures ModelBadge(a).0 == ModelBadge(b).0 <==> a == b
  {
  }

  /** The current-delay column: "On time" for zero. */
  function DelayText(delay: int): (s: string)
    ensures s == "On time" <==> delay == 0
  {
    if delay == 0 then "On time"
    else
      var s := MinutesText(delay);
      assert s[0] != 'O';
      s
  }

  /** The icon beside the current delay: rising, falling or a clock. */
  function DelayTrend(delay: int): (t: Tone)
    ensures t == Warning <==> delay > 0
    ensures t == Success <==> delay < 0
    ensures t == Muted <==> delay == 0
  {
    if delay > 0 then Warning else if delay < 0 then Success else Muted
  }

  /** The change column: predicted minus current minutes, in the warning tone
      when the prediction is worse than the current delay. */
  function ChangeText(current: int, predicted: int): (r: (string, Tone))
    ensures |r.0| > 0 && (r.0[0] == '+' <==> predicted > current)
    ensures r.1 == Warning <==> predicted > current
    ensures r.1 == Success <==> predicted <= current
  {
    (MinutesText(predicted - current), if predicted > current then Warning else Success)
  }

  /** Reads a current-delay text back. */
  function ReadDelay(s: string): Option<int> {
    if s == "On time" then Some(0) else ReadMinutes(s)
  }

  /** The current-delay column loses nothing either. */
  lemma DelayRoundTrip(delay: int)
    ensures ReadDelay(DelayText(delay)) == Some(delay)
  {
    if delay != 0 {
      MinutesRoundTrip(delay);
    }
  }

  /** The change column reads back as the difference of the two delays. */
  lemma ChangeRoundTrip(current: int, predicted: int)
    ensures ReadMinutes(ChangeText(current, predicted).0) == Some(predicted - current)
  {
    MinutesRoundTrip(predicted - current);
  }

  // ------------------------------------------------------------------ fixtures

  lemma FixtureConfidenceSum()
    ensures forall i :: 0 <= i < |Predict(MockTrains)| ==> Predict(MockTrains)[i].estimate.Some?
    ensures Sum(Confidences(Predict(MockTrains))) == 434
  {
    var ps := Predict(MockTrains);
    var xs := Confidences(ps);
    assert xs == [85, 92, 78, 88, 91];
    assert Sum(xs[4..]) == 91;
    assert xs[3..][1..] == xs[4..];
    assert Sum(xs[3..]) == 179;
    assert xs[2..][1..] == xs[3..];
    assert Sum(xs[2..]) == 257;
    assert xs[1..][1..] == xs[2..];
    assert Sum(xs[1..]) == 349;
  }

  /** On the fixture trains the average confidence card reads 87. */
  lemma FixtureAverageConfidence()
    ensures AverageConfidence(Predict(MockTrains)) == Some(87)
  {
    FixtureConfidenceSum();
    assert RoundHalfUp(434, 5) == 87;
  }

  lemma FixtureRisks()
    ensures var ps := Predict(MockTrains);
      RiskOf(ps[0]) == Some(RiskLevel.Medium) && RiskOf(ps[1]) == Some(RiskLevel.Low) &&
      RiskOf(ps[2]) == Some(RiskLevel.Critical) && RiskOf(ps[3]) == Some(RiskLevel.Medium) &&
      RiskOf(ps[4]) == Some(RiskLevel.Low)
  {
  }

  lemma FixtureCritical()
    ensures |Filter(Predict(MockTrains), IsCritical)| == 1
  {
    var ps := Predict(MockTrains);
    FixtureRisks();
    assert |Filter(ps[4..], IsCritical)| == 0;
    assert |Filter(ps[3..], IsCritical)| == 0;
    assert |Filter(ps[2..], IsCritical)| == 1;
    assert |Filter(ps[1..], IsCritical)| == 1;
  }

  lemma FixtureMediumOrHigh()
    ensures |Filter(Predict(MockTrains), IsMediumOrHigh)| == 2
  {
    var ps := Predict(MockTrains);
    FixtureRisks();
    assert |Filter(ps[4..], IsMediumOrHigh)| == 0;
    assert |Filter(ps[3..], IsMediumOrHigh)| == 1;
    assert |Filter(ps[2..], IsMediumOrHigh)| == 1;
    assert |Filter(ps[1..], IsMediumOrHigh)| == 1;
  }

  lemma FixtureLow()
    ensures |Filter(Predict(MockTrains), IsLow)| == 2
  {
    var ps := Predict(MockTrains);
    FixtureRisks();
    assert |Filter(ps[4..], IsLow)| == 1;
    assert |Filter(ps[3..], IsLow)| == 1;
    assert |Filter(ps[2..], IsLow)| == 1;
    assert |Filter(ps[1..], IsLow)| == 2;
  }

  /** On the fixture trains: one critical, two medium-or-high and two low. */
  lemma FixtureRiskCounts()
    ensures CountRisks(Predict(MockTrains)) == RiskCounts(1, 2, 2)
  {
    FixtureCritical();
    FixtureMediumOrHigh();
    FixtureLow();
  }

  /** A sixth train has no estimate, so it is on no card and the average reads NaN. */
  lemma SixthTrainHasNoEstimate(trains: seq<Train>)
    requires |trains| == 6
    ensures Predict(trains)[5].estimate.None?
    ensures AverageConfidence(Predict(trains)).None?
  {
  }
}

=== FILE: mock_data.dfy ===
/** The records and fixture arrays every page renders, the colour helpers for
    train status and conflict severity, and the dashboard's key figures. */
module MockData {
  import opened Wrappers
  import opened Seqs

  /** The colour family of a CSS class: the pages choose among these and the
      class strings themselves are presentation. */
  datatype Tone = Success | Primary | Warning | Destructive | Muted

  datatype TrainStatus = Active | Delayed | OnTime | Stopped
  datatype Direction = North | South | East | West

  /** A train; its map position (floating-point latitude and longitude) is not modelled. */
  datatype Train = Train(
    id: string,
    name: string,
    route: string,
    status: TrainStatus,
    speed: int,               // km/h
    currentStation: string,
    nextStation: string,
    scheduledTime: string,
    actualTime: string,
    delay: int,               // minutes, negative when early
    occupancy: int,           // percentage
    direction: Direction)

  datatype StationStatus = Operational | Maintenance | Congested
  datatype Station = Station(id: string, name: string, code: string, platforms: nat, status: StationStatus)

  datatype ConflictKind = CollisionRisk | PlatformConflict | SchedulingConflict
  datatype Severity = Low | Medium | High | Critical
  datatype ConflictStatus = Active | Resolved | Monitoring

  datatype Conflict = Conflict(
    id: string,
    kind: ConflictKind,
    severity: Severity,
    description: string,
    affectedTrains: seq<string>,
    predictedTime: string,    // "HH:MM"
    suggestedResolution: string,
    status: ConflictStatus,
    timestamp: string)

  /** The string a train status has at run time. */
  function TrainStatusName(s: TrainStatus): string {
    match s
    case Active => "active"
    case Delayed => "delayed"
    case OnTime => "on_time"
    case Stopped => "stopped"
  }

  function SeverityName(s: Severity): string {
    match s
    case Low => "low"
    case Medium => "medium"
    case High => "high"
    case Critical => "critical"
  }

  function ConflictStatusName(s: ConflictStatus): string {
    match s
    case Active => "active"
    case Resolved => "resolved"
    case Monitoring => "monitoring"
  }

  /** `getTrainStatusColor`: a `switch` on the status string with a muted default. */
  function TrainStatusColor(status: string): (t: Tone)
    ensures t == Success <==> status == "active"
    ensures t == Primary <==> status == "on_time"
    ensures t == Warning <==> status == "delayed"
    ensures t == Destructive <==> status == "stopped"
    ensures t == Muted <==> forall s: TrainStatus :: status != TrainStatusName(s)
  {
    match status
    case "active" => assert status == TrainStatusName(TrainStatus.Active); Success
    case "on_time" => assert status == TrainStatusName(OnTime); Primary
    case "delayed" => assert status == TrainStatusName(Delayed); Warning
    case "stopped" => assert status == TrainStatusName(Stopped); Destructive
    case _ => Muted
  }

  /** The four train statuses are told apart by colour, and none of them is muted. */
  lemma TrainStatusColorsDistinct(a: TrainStatus, b: TrainStatus)
    ensures TrainStatusColor(TrainStatusName(a)) == TrainStatusColor(TrainStatusName(b)) <==> a == b
    ensures TrainStatusColor(TrainStatusName(a)) != Muted
  {
  }

  /** `getConflictSeverityColor`: medium and high share the warning colour, and
      low shares the muted colour of the default branch. */
  function ConflictSeverityColor(severity: string): (t: Tone)
    ensures t == Warning <==> severity == "medium" || severity == "high"
    ensures t == Destructive <==> severity == "critical"
    ensures t == Muted <==> severity != "medium" && severity != "high" && severity != "critical"
  {
    match severity
    case "low" => Muted
    case "medium" => Warning
    case "high" => Warning
    case "critical" => Destructive
    case _ => Muted
  }

  /** Low severity cannot be told from an unknown severity by colour. */
  lemma LowSeverityLooksUnknown(other: string)
    requires forall s: Severity :: other != SeverityName(s)
    ensures ConflictSeverityColor(SeverityName(Low)) == ConflictSeverityColor(other)
  {
    assert other != SeverityName(Medium) && other != SeverityName(High) && other != SeverityName(Critical);
  }

  function Sum(xs: seq<int>): int
    decreases |xs|
  {
    if |xs| == 0 then 0 else xs[0] + Sum(xs[1..])
  }

  /** `Math.round(a / b)` for integers: the nearest integer, ties rounded up. */
  function RoundHalfUp(a: int, b: int): (r: int)
    requires b > 0
    ensures 2 * b * r - b <= 2 * a < 2 * b * r + b
  {
    (2 * a + b) / (2 * b)
  }

  /** The mean of `xs` rounded half up; `None` stands for the NaN of `0 / 0`. */
  function RoundedMean(xs: seq<int>): (r: Option<int>)
    ensures r.Some? <==> |xs| > 0
    ensures r.Some? ==> 2 * |xs| * r.value - |xs| <= 2 * Sum(xs) < 2 * |xs| * r.value + |xs|
  {
    if |xs| == 0 then None else Some(RoundHalfUp(Sum(xs), |xs|))
  }

  /** The mean delay in tenths of a minute, rounded half up, as
      `Math.round(avgDelay * 10) / 10` shows it. */
  function MeanTenths(xs: seq<int>): (r: Option<int>)
    ensures r.Some? <==> |xs| > 0
    ensures r.Some? ==> 2 * |xs| * r.value - |xs| <= 20 * Sum(xs) < 2 * |xs| * r.value + |xs|
  {
    if |xs| == 0 then None else Some(RoundHalfUp(10 * Sum(xs), |xs|))
  }

  function Occupancies(trains: seq<Train>): (r: seq<int>)
    ensures |r| == |trains| && forall i :: 0 <= i < |r| ==> r[i] == trains[i].occupancy
  {
    seq(|trains|, i requires 0 <= i < |trains| => trains[i].occupancy)
  }

  function Delays(trains: seq<Train>): (r: seq<int>)
    ensures |r| == |trains| && forall i :: 0 <= i < |r| ==> r[i] == trains[i].delay
  {
    seq(|trains|, i requires 0 <= i < |trains| => trains[i].delay)
  }

  predicate IsRunning(t: Train) {
    t.status == TrainStatus.Active || t.status == OnTime
  }

  predicate IsHalted(t: Train) {
    t.status == Delayed || t.status == Stopped
  }

  function TrainStatusOf(t: Train): TrainStatus {
    t.status
  }

  /** The test `t.status === s` on trains. */
  function TrainStatusIs(s: TrainStatus): Train -> bool {
    (t: Train) => t.status == s
  }

  function ConflictStatusOf(c: Conflict): ConflictStatus {
    c.status
  }

  function ConflictSeverityOf(c: Conflict): Severity {
    c.severity
  }

  /** The test `c.status === s` by which every page filters and counts conflicts. */
  function StatusIs(s: ConflictStatus): Conflict -> bool {
    (c: Conflict) => c.status == s
  }

  /** The dashboard's key figures; the two means are `None` for an empty train list. */
  datatype Kpis = Kpis(activeTrains: nat, avgDelayTenths: Option<int>, activeConflicts: nat, systemThroughput: Option<int>)

  /** `calculateKPIs` over given train and conflict lists. */
  function CalculateKpis(trains: seq<Train>, conflicts: seq<Conflict>): (k: Kpis)
    ensures k.avgDelayTenths.Some? ==>
      2 * |trains| * k.avgDelayTenths.value - |trains| <= 20 * Sum(Delays(trains)) < 2 * |trains| * k.avgDelayTenths.value + |trains|
    ensures k.systemThroughput.Some? ==>
      2 * |trains| * k.systemThroughput.value - |trains| <= 2 * Sum(Occupancies(trains)) < 2 * |trains| * k.systemThroughput.value + |trains|
    ensures k.avgDelayTenths.Some? <==> |trains| > 0
    ensures k.systemThroughput.Some? <==> |trains| > 0
    ensures k.activeConflicts == CountKey(conflicts, ConflictStatusOf, ConflictStatus.Active)
    ensures k.activeConflicts == 0 <==> forall i :: 0 <= i < |conflicts| ==> conflicts[i].status != ConflictStatus.Active
    ensures k.activeTrains == CountKey(trains, TrainStatusOf, TrainStatus.Active) + CountKey(trains, TrainStatusOf, OnTime)
    ensures k.activeTrains + |Filter(trains, IsHalted)| == |trains|
  {
    var active := StatusIs(ConflictStatus.Active);
    RunningOrHalted(trains);
    RunningTally(trains);
    FilterEmpty(conflicts, active);
    FilterCountsKey(conflicts, ConflictStatusOf, ConflictStatus.Active, active);
    Kpis(
      |Filter(trains, IsRunning)|,
      MeanTenths(Delays(trains)),
      |Filter(conflicts, active)|,
      RoundedMean(Occupancies(trains)))
  }

  /** Every train is running or halted, never both. */
  lemma RunningOrHalted(trains: seq<Train>)
    ensures |Filter(trains, IsRunning)| + |Filter(trains, IsHalted)| == |trains|
  {
    FilterDisjointCount(trains, IsRunning, IsHalted, (t: Train) => true);
    FilterAll(trains, (t: Train) => true);
  }

  /** The running trains are the active ones and the on-time ones. */
  lemma RunningTally(trains: seq<Train>)
    ensures |Filter(trains, IsRunning)| ==
      CountKey(trains, TrainStatusOf, TrainStatus.Active) + CountKey(trains, TrainStatusOf, OnTime)
  {
    var active, onTime := TrainStatusIs(TrainStatus.Active), TrainStatusIs(OnTime);
    FilterDisjointCount(trains, active, onTime, IsRunning);
    FilterCountsKey(trains, TrainStatusOf, TrainStatus.Active, active);
    FilterCountsKey(trains, TrainStatusOf, OnTime, onTime);
  }

  /** Values within 0..100 sum to at most 100 per value. */
  lemma {:induction false} SumOfPercentages(xs: seq<int>)
    requires forall i :: 0 <= i < |xs| ==> 0 <= xs[i] <= 100
    ensures 0 <= Sum(xs) <= 100 * |xs|
    decreases |xs|
  {
    if |xs| > 0 {
      SumOfPercentages(xs[1..]);
    }
  }

  /** A mean of values between `lo` and `hi`, rounded to the nearest integer,
      stays between `lo` and `hi`. */
  lemma RoundedMeanWithin(sum: int, n: int, r: int, lo: int, hi: int)
    requires n > 0 && lo * n <= sum <= hi * n
    requires 2 * n * r - n <= 2 * sum < 2 * n * r + n
    ensures lo <= r <= hi
  {
    if r < lo {
      MulMonotone(n, r, lo - 1);
    }
    if r > hi {
      MulMonotone(n, hi + 1, r);
    }
  }

  lemma MulMonotone(n: int, a: int, b: int)
    requires n >= 0 && a <= b
    ensures n * a <= n * b
  {
  }

  /** When every occupancy is a percentage, so is the system throughput. */
  lemma ThroughputIsPercentage(trains: seq<Train>, conflicts: seq<Conflict>)
    requires |trains| > 0
    requires forall i :: 0 <= i < |trains| ==> 0 <= trains[i].occupancy <= 100
    ensures var k := CalculateKpis(trains, conflicts);
      k.systemThroughput.Some? && 0 <= k.systemThroughput.value <= 100
  {
    var xs := Occupancies(trains);
    SumOfPercentages(xs);
    var k := CalculateKpis(trains, conflicts);
    RoundedMeanWithin(Sum(xs), |trains|, k.systemThroughput.value, 0, 100);
  }

  // ------------------------------------------------------------------ fixtures

  const MockStations: seq<Station> := [
    Station("ST001", "Central Station", "CS", 8, Operational),
    Station("ST002", "North Junction", "NJ", 4, Operational),
    Station("ST003", "East Terminal", "ET", 6, Congested),
    Station("ST004", "South Hub", "SH", 5, Operational),
    Station("ST005", "West Gateway", "WG", 3, Maintenance),
    Station("ST006", "Metro Junction", "MJ", 4, Operational)
  ]

  const MockTrains: seq<Train> := [
    Train("TR001", "Express 12001", "CS-NJ-ET", TrainStatus.Active, 85, "Central Station", "North Junction", "14:30", "14:35", 5, 78, North),
    Train("TR002", "Local 22003", "ET-SH-WG", OnTime, 60, "East Terminal", "South Hub", "14:45", "14:45", 0, 45, South),
    Train("TR003", "Freight 35007", "WG-CS-MJ", Delayed, 35, "West Gateway", "Central Station", "14:20", "14:42", 22, 95, East),
    Train("TR004", "Metro 41002", "NJ-MJ-CS", TrainStatus.Active, 72, "North Junction", "Metro Junction", "14:50", "14:48", -2, 62, West),
    Train("TR005", "Express 15004", "SH-ET-NJ", Stopped, 0, "South Hub", "East Terminal", "14:55", "14:58", 3, 88, North)
  ]

  const MockConflicts: seq<Conflict> := [
    Conflict("CF001", CollisionRisk, High, "Express 12001 and Freight 35007 approaching same junction",
      ["TR001", "TR003"], "14:52", "Hold TR003 at WG for 3 minutes", ConflictStatus.Active, "2024-01-15T14:45:00Z"),
    Conflict("CF002", PlatformConflict, Medium, "Platform 3 at East Terminal double-booked",
      ["TR002", "TR005"], "15:05", "Reroute TR005 to Platform 4", Monitoring, "2024-01-15T14:40:00Z"),
    Conflict("CF003", SchedulingConflict, Low, "Minor delay propagation from TR003",
      ["TR003", "TR004"], "15:15", "Adjust TR004 departure by 5 minutes", Resolved, "2024-01-15T14:30:00Z")
  ]

  /** Every train a fixture conflict names is a fixture train. */
  lemma FixtureConflictsNameKnownTrains()
    ensures forall c, id :: c in MockConflicts && id in c.affectedTrains ==>
      exists t :: t in MockTrains && t.id == id
  {
    forall c, id | c in MockConflicts && id in c.affectedTrains
      ensures exists t :: t in MockTrains && t.id == id
    {
      if id == "TR001" { assert MockTrains[0].id == id; }
      else if id == "TR002" { assert MockTrains[1].id == id; }
      else if id == "TR003" { assert MockTrains[2].id == id; }
      else if id == "TR004" { assert MockTrains[3].id == id; }
      else { assert id == "TR005" && MockTrains[4].id == id; }
    }
  }

  /** Every station a fixture train is at or heading to is a fixture station. */
  lemma FixtureTrainsNameKnownStations()
    ensures forall t :: t in MockTrains ==>
      (exists s :: s in MockStations && s.name == t.currentStation) &&
      (exists s :: s in MockStations && s.name == t.nextStation)
  {
    forall t | t in MockTrains
      ensures (exists s :: s in MockStations && s.name == t.currentStation)
      ensures (exists s :: s in MockStations && s.name == t.nextStation)
    {
      KnownStation(t.currentStation);
      KnownStation(t.nextStation);
    }
  }

  lemma KnownStation(name: string)
    requires name in ["Central Station", "North Junction", "East Terminal", "South Hub", "West Gateway", "Metro Junction"]
    ensures exists s :: s in MockStations && s.name == name
  {
    if name == "Central Station" { assert MockStations[0].name == name; }
    else if name == "North Junction" { assert MockStations[1].name == name; }
    else if name == "East Terminal" { assert MockStations[2].name == name; }
    else if name == "South Hub" { assert MockStations[3].name == name; }
    else if name == "West Gateway" { assert MockStations[4].name == name; }
    else { assert MockStations[5].name == name; }
  }

  lemma FixtureRunningTrains()
    ensures |Filter(MockTrains, IsRunning)| == 3
  {
    var ts := MockTrains;
    assert IsRunning(ts[0]) && IsRunning(ts[1]) && !IsRunning(ts[2]) && IsRunning(ts[3]) && !IsRunning(ts[4]);
    assert |Filter(ts[4..], IsRunning)| == 0;
    assert |Filter(ts[3..], IsRunning)| == 1;
    assert |Filter(ts[2..], IsRunning)| == 1;
    assert |Filter(ts[1..], IsRunning)| == 2;
  }

  lemma FixtureActiveConflicts()
    ensures |Filter(MockConflicts, StatusIs(ConflictStatus.Active))| == 1
  {
    var cs := MockConflicts;
    var active := StatusIs(ConflictStatus.Active);
    assert active(cs[0]) && !active(cs[1]) && !active(cs[2]);
    assert |Filter(cs[2..], active)| == 0;
    assert |Filter(cs[1..], active)| == 0;
  }

  lemma FixtureMeanDelay()
    ensures MeanTenths(Delays(MockTrains)) == Some(56)
  {
    var ds := Delays(MockTrains);
    assert ds[0] == 5 && ds[1] == 0 && ds[2] == 22 && ds[3] == -2 && ds[4] == 3;
    assert Sum(ds[4..]) == 3;
    assert Sum(ds[3..]) == 1;
    assert Sum(ds[2..]) == 23;
    assert Sum(ds[1..]) == 23;
    assert Sum(ds) == 28;
  }

  lemma FixtureMeanOccupancy()
    ensures RoundedMean(Occupancies(MockTrains)) == Some(74)
  {
    var os := Occupancies(MockTrains);
    assert os[0] == 78 && os[1] == 45 && os[2] == 95 && os[3] == 62 && os[4] == 88;
    assert Sum(os[4..]) == 88;
    assert Sum(os[3..]) == 150;
    assert Sum(os[2..]) == 245;
    assert Sum(os[1..]) == 290;
    assert Sum(os) == 368;
  }

  /** On the fixtures the mean delay is 5.6 minutes and the mean occupancy 73.6 rounds to 74. */
  lemma FixtureMeans()
    ensures MeanTenths(Delays(MockTrains)) == Some(56)
    ensures RoundedMean(Occupancies(MockTrains)) == Some(74)
  {
    FixtureMeanDelay();
    FixtureMeanOccupancy();
  }

  /** On the fixtures: three running trains, mean delay 5.6 minutes, one active
      conflict, and a throughput of 74 (the mean occupancy 73.6 rounded). */
  lemma FixtureKpis()
    ensures CalculateKpis(MockTrains, MockConflicts) == Kpis(3, Some(56), 1, Some(74))
  {
    FixtureRunningTrains();
    FixtureActiveConflicts();
    FixtureMeans();
  }
}

=== FILE: numerals.dfy ===
/** Decimal numerals: how JavaScript prints an integer (`String(n)`, template
    literals) and how `Number(s)` reads one back. */
module Numerals {
  import opened Wrappers
  import opened Text

  predicate IsDigit(c: char) {
    '0' <= c <= '9'
  }

  predicate AllDigits(s: string) {
    forall i :: 0 <= i < |s| ==> IsDigit(s[i])
  }

  function DigitChar(d: nat): (c: char)
    requires d < 10
    ensures IsDigit(c) && c as int - '0' as int == d
  {
    ('0' as int + d) as char
  }

  function DigitValue(c: char): nat
    requires IsDigit(c)
  {
    c as int - '0' as int
  }

  /** The value of a string of decimal digits, most significant first;
      leading zeros are allowed, as in `Number("09")`. */
  function DigitsValue(s: string): nat
    requires AllDigits(s)
    decreases |s|
  {
    if |s| == 0 then 0 else 10 * DigitsValue(s[..|s| - 1]) + DigitValue(s[|s| - 1])
  }

  /** The shortest decimal numeral of `n`, as `String(n)` prints it. */
  function NatToString(n: nat): (s: string)
    ensures |s| > 0 && AllDigits(s)
    ensures s[0] == '0' ==> n == 0
    decreases n
  {
    if n < 10 then [DigitChar(n)] else NatToString(n / 10) + [DigitChar(n % 10)]
  }

  /** `String(n)` for an integer: a minus sign before the numeral of `|n|` when negative. */
  function IntToString(n: int): (s: string)
    ensures |s| > 0
    ensures n < 0 <==> s[0] == '-'
  {
    if n < 0 then "-" + NatToString(-n) else NatToString(n)
  }

  /** Reading a printed numeral gives the number back. */
  lemma {:induction false} NatToStringValue(n: nat)
    ensures DigitsValue(NatToString(n)) == n
    decreases n
  {
    if n >= 10 {
      NatToStringValue(n / 10);
      var s := NatToString(n);
      assert s[..|s| - 1] == NatToString(n / 10);
    }
  }

  /** A canonical decimal numeral of a natural number: digits only, non-empty,
      and no leading zero unless the numeral is "0". */
  function ParseNat(s: string): (r: Option<nat>)
    ensures r.Some? <==> |s| > 0 && AllDigits(s) && (s[0] == '0' ==> |s| == 1)
  {
    if |s| > 0 && AllDigits(s) && (s[0] != '0' || |s| == 1) then Some(DigitsValue(s)) else None
  }

  /** A canonical decimal numeral of an integer: an optional minus sign before
      a canonical natural numeral other than "-0". */
  function ParseInt(s: string): (r: Option<int>)
    ensures r.Some? && r.value < 0 ==> |s| > 0 && s[0] == '-'
  {
    if |s| > 0 && s[0] == '-' then
      match ParseNat(s[1..])
      case Some(n) => if n == 0 then None else Some(-(n as int))
      case None => None
    else
      match ParseNat(s)
      case Some(n) => Some(n)
      case None => None
  }

  /** `ParseNat` inverts `NatToString`. */
  lemma NatRoundTrip(n: nat)
    ensures ParseNat(NatToString(n)) == Some(n)
  {
    NatToStringValue(n);
  }

  /** `ParseInt` inverts `IntToString`, so distinct integers print differently. */
  lemma IntRoundTrip(n: int)
    ensures ParseInt(IntToString(n)) == Some(n)
  {
    if n < 0 {
      NatRoundTrip(-n);
      assert IntToString(n)[1..] == NatToString(-n);
    } else {
      NatRoundTrip(n);
    }
  }

  /** The result of JavaScript's `Number(s)` restricted to integers: NaN is not a number. */
  datatype JsNumber = Finite(value: int) | NaN

  /** The sign a numeral may start with: none, plus or minus. */
  predicate IsSign(sign: string) {
    sign == "" || sign == "+" || sign == "-"
  }

  /** The integer an optional sign and a digit string denote. */
  function SignedValue(sign: string, ds: string): int
    requires AllDigits(ds)
  {
    if sign == "-" then -(DigitsValue(ds) as int) else DigitsValue(ds)
  }

  /** The integer numerals: an optional sign followed by one or more decimal digits. */
  ghost predicate IsIntegerNumeral(t: string) {
    exists sign, ds {:trigger IsSign(sign), AllDigits(ds)} :: t == sign + ds && IsSign(sign) && ds != [] && AllDigits(ds)
  }

  /** `Number` applied to text without surrounding whitespace: the empty string
      is 0, an integer numeral is its value, and anything else is NaN. */
  function NumberOfTrimmed(t: string): (r: JsNumber)
    ensures t == "" ==> r == Finite(0)
    ensures r.Finite? <==> t == "" || IsIntegerNumeral(t)
    ensures forall sign, ds {:trigger IsSign(sign), AllDigits(ds)} :: t == sign + ds && IsSign(sign) && ds != [] && AllDigits(ds) ==>
      r == Finite(SignedValue(sign, ds))
    ensures r.Finite? && t != "" ==> IsDigit(t[|t| - 1])
  {
    NumeralGrammar(t);
    if t == "" then Finite(0)
    else if (t[0] == '+' || t[0] == '-') && |t| > 1 && AllDigits(t[1..]) then
      assert IsDigit(t[1..][|t| - 2]);
      var v: int := DigitsValue(t[1..]);
      Finite(if t[0] == '-' then -v else v)
    else if AllDigits(t) then
      Finite(DigitsValue(t))
    else NaN
  }

  /** How a numeral splits into its sign and its digits: the sign is the first
      character exactly when that character is not a digit. */
  lemma NumeralGrammar(t: string)
    ensures IsIntegerNumeral(t) <==>
      |t| > 0 && (AllDigits(t) || ((t[0] == '+' || t[0] == '-') && |t| > 1 && AllDigits(t[1..])))
    ensures forall sign, ds {:trigger IsSign(sign), AllDigits(ds)} :: t == sign + ds && IsSign(sign) && ds != [] && AllDigits(ds) ==>
      if sign == "" then t == ds && AllDigits(t) else t[0] == sign[0] && !IsDigit(t[0]) && t[1..] == ds
  {
    forall sign, ds {:trigger IsSign(sign), AllDigits(ds)} | t == sign + ds && IsSign(sign) && ds != [] && AllDigits(ds)
      ensures if sign == "" then t == ds && AllDigits(t) else t[0] == sign[0] && !IsDigit(t[0]) && t[1..] == ds
    {
      if sign != "" {
        assert t[0] == sign[0];
        assert t[1..] == ds;
      }
    }
    if |t| > 0 {
      if AllDigits(t) {
        assert t == "" + t && IsSign("") && AllDigits(t);
      } else if (t[0] == '+' || t[0] == '-') && |t| > 1 && AllDigits(t[1..]) {
        assert t == [t[0]] + t[1..] && IsSign([t[0]]) && AllDigits(t[1..]);
      }
    }
  }

  /** `Number(s)` for integer text: surrounding whitespace is ignored first. */
  function ToNumber(s: string): (r: JsNumber)
    ensures Trim(s) == "" ==> r == Finite(0)
    ensures r.Finite? <==> Trim(s) == "" || IsIntegerNumeral(Trim(s))
    ensures forall sign, ds {:trigger IsSign(sign), AllDigits(ds)} :: Trim(s) == sign + ds && IsSign(sign) && ds != [] && AllDigits(ds) ==>
      r == Finite(SignedValue(sign, ds))
    ensures r.Finite? && Trim(s) != "" ==> IsDigit(Trim(s)[|Trim(s)| - 1])
  {
    NumberOfTrimmed(Trim(s))
  }

  /** A letter makes the text NaN even before a digit; a padded signed numeral
      still reads as its value. */
  lemma ToNumberExamples()
    ensures ToNumber("a1") == NaN
    ensures ToNumber(" -7 ") == Finite(-7)
  {
    assert !IsWhitespace('a') && !IsWhitespace('1');
    TrimIdentity("a1");
    assert !AllDigits("a1");
    var t := " -7 ";
    assert IsWhitespace(t[0]) && IsWhitespace(t[3]) && !IsWhitespace(t[1]) && !IsWhitespace(t[2]);
    SkipSpaceUnique(t, 0, 1);
    SkipSpaceBackUnique(t, 1, 4, 3);
    assert Trim(t) == "-7";
    assert "-7" == "-" + "7";
  }

  /** A numeral, signed or not, has no surrounding whitespace to trim. */
  lemma NumeralIsTrimmed(s: string)
    requires |s| > 0 && IsDigit(s[|s| - 1])
    requires IsDigit(s[0]) || s[0] == '-'
    ensures Trim(s) == s
  {
    assert !IsWhitespace(s[0]) && !IsWhitespace(s[|s| - 1]);
    TrimIdentity(s);
  }

  lemma NumberOfDigits(s: string)
    requires AllDigits(s)
    ensures NumberOfTrimmed(s) == Finite(DigitsValue(s))
  {
    if s != [] {
      assert IsDigit(s[0]);
    }
  }

  /** `Number` reads a string of digits as its value (the empty string as 0). */
  lemma DigitsToNumber(s: string)
    requires AllDigits(s)
    ensures ToNumber(s) == Finite(DigitsValue(s))
  {
    if s != [] {
      assert IsDigit(s[0]) && IsDigit(s[|s| - 1]);
      NumeralIsTrimmed(s);
    }
    NumberOfDigits(s);
  }

  lemma NumberOfNegative(d: string)
    requires |d| > 0 && AllDigits(d)
    ensures NumberOfTrimmed("-" + d) == Finite(-(DigitsValue(d) as int))
  {
    var s := "-" + d;
    assert s[1..] == d;
  }

  lemma ToNumberOfNegative(n: int)
    requires n < 0
    ensures ToNumber("-" + NatToString(-n)) == Finite(n)
  {
    var d := NatToString(-n);
    var s := "-" + d;
    assert s[|s| - 1] == d[|d| - 1];
    NumeralIsTrimmed(s);
    NumberOfNegative(d);
    NatToStringValue(-n);
  }

  /** `Number` reads back every integer `String` prints. */
  lemma ToNumberOfPrinted(n: int)
    ensures ToNumber(IntToString(n)) == Finite(n)
  {
    if n < 0 {
      ToNumberOfNegative(n);
    } else {
      DigitsToNumber(NatToString(n));
      NatToStringValue(n);
    }
  }

  // ------------------------------------------------------------------ signed minutes

  /** A signed number of minutes as the pages print it: "+N min" above zero,
      `String(n)` followed by " min" otherwise. */
  function MinutesText(n: int): (s: string)
    ensures |s| > 0 && EndsWith(s, " min")
    ensures s[0] == '+' <==> n > 0
    ensures s[0] == '-' <==> n < 0
  {
    var s := if n > 0 then "+" + NatToString(n) + " min" else IntToString(n) + " min";
    assert s[|s| - 4..] == " min";
    assert n == 0 ==> IsDigit(s[0]);
    s
  }

  /** Reads a minutes text back. */
  function ReadMinutes(s: string): Option<int> {
    if EndsWith(s, " min") then
      var body := s[..|s| - 4];
      if |body| > 0 && body[0] == '+' then
        match ParseNat(body[1..])
        case Some(n) => if n > 0 then Some(n as int) else None
        case None => None
      else
        match ParseInt(body)
        case Some(n) => if n <= 0 then Some(n) else None
        case None => None
    else None
  }

  /** Minutes texts lose nothing: they read back as the number printed. */
  lemma MinutesRoundTrip(n: int)
    ensures ReadMinutes(MinutesText(n)) == Some(n)
  {
    var s := MinutesText(n);
    var body := s[..|s| - 4];
    if n > 0 {
      assert body == "+" + NatToString(n);
      assert body[1..] == NatToString(n);
      NatRoundTrip(n);
    } else {
      assert body == IntToString(n);
      IntRoundTrip(n);
    }
  }
}

=== FILE: rerouting.dfy ===
/** The rerouting page: the alternative routes offered for a train, their
    feasibility tiers, the time-impact labels and which routes may be applied. */
module Rerouting {
  import opened Wrappers
  import opened Numerals
  import opened MockData

  /** An alternative route. The extra distance is kept in tenths of a kilometre. */
  datatype RouteOption = RouteOption(
    id: string, name: string, route: string,
    additionalTime: int, additionalDistanceTenths: nat,
    cost: string, impact: string, feasibility: int)

  const Options: seq<RouteOption> := [
    RouteOption("route1", "Primary Alternative", "CS → WG → SH → ET", 8, 23, "Low", "Minimal delay to other trains", 95),
    RouteOption("route2", "Express Route", "CS → MJ → ET", -3, 11, "Medium", "May affect Metro 41002 schedule", 78),
    RouteOption("route3", "Freight Bypass", "CS → NJ → MJ → ET", 12, 42, "High", "Requires coordination with freight traffic", 65)
  ]

  /** The feasibility badge: at least 90 is green, at least 70 amber, anything
      lower red. */
  function FeasibilityTone(feasibility: int): (t: Tone)
    ensures t == Success <==> feasibility >= 90
    ensures t == Warning <==> 70 <= feasibility < 90
    ensures t == Destructive <==> feasibility < 70
  {
    if feasibility >= 90 then Success
    else if feasibility >= 70 then Warning
    else Destructive
  }

  /** How good a badge tone is, worst first. */
  function ToneRank(t: Tone): nat {
    match t
    case Destructive => 0
    case Warning => 1
    case Success => 2
    case _ => 0
  }

  /** A more feasible route never gets a worse badge. */
  lemma FeasibilityToneMonotone(a: int, b: int)
    requires a <= b
    ensures ToneRank(FeasibilityTone(a)) <= ToneRank(FeasibilityTone(b))
  {
  }

  /** The "Apply Route" button is disabled below 70% feasibility. */
  predicate ApplyEnabled(o: RouteOption) {
    !(o.feasibility < 70)
  }

  /** A route can be applied exactly when its badge is not red. */
  lemma ApplyEnabledUnlessRed(o: RouteOption)
    ensures ApplyEnabled(o) <==> FeasibilityTone(o.feasibility) != Destructive
  {
  }

  /** The time-impact cell: the signed minutes, amber for a longer journey and
      green for the same or a shorter one. */
  function TimeImpact(o: RouteOption): (r: (string, Tone))
    ensures r.1 == Warning <==> o.additionalTime > 0
    ensures r.1 == Success <==> o.additionalTime <= 0
    ensures ReadMinutes(r.0) == Some(o.additionalTime)
  {
    MinutesRoundTrip(o.additionalTime);
    (MinutesText(o.additionalTime), if o.additionalTime > 0 then Warning else Success)
  }

  /** The routes on offer that may be applied, in display order. */
  function ApplicableRoutes(options: seq<RouteOption>): (r: seq<string>)
    ensures |r| <= |options|
    ensures forall o :: o in options && ApplyEnabled(o) ==> o.id in r
    ensures forall id :: id in r ==> exists o :: o in options && ApplyEnabled(o) && o.id == id
  {
    if |options| == 0 then []
    else
      var rest := ApplicableRoutes(options[1..]);
      assert forall o :: o in options[1..] ==> o in options;
      if ApplyEnabled(options[0]) then [options[0].id] + rest else rest
  }

  // ------------------------------------------------------------------ fixtures

  /** The route comparison card: the current route and its 75 scheduled minutes. */
  const CurrentRoute := "CS → NJ → ET"
  const ScheduledMinutes := 75
  /** The route comparison card: the recommended route and its estimated minutes. */
  const RecommendedRoute := "CS → WG → SH → ET"
  const RecommendedMinutes := 83

  /** The first option of highest feasibility, or `None` when nothing is offered. */
  function MostFeasible(options: seq<RouteOption>): (r: Option<RouteOption>)
    ensures r.Some? <==> |options| > 0
    ensures r.Some? ==> r.value in options
    ensures r.Some? ==> forall i :: 0 <= i < |options| ==> options[i].feasibility <= r.value.feasibility
  {
    if |options| == 0 then None
    else
      var rest := options[1..];
      assert forall i :: 1 <= i < |options| ==> options[i] == rest[i - 1];
      match MostFeasible(rest)
      case None => Some(options[0])
      case Some(best) => if best.feasibility > options[0].feasibility then Some(best) else Some(options[0])
  }

  /** The fixture routes get a green, an amber and a red badge, and only the
      first two may be applied. */
  lemma FixtureTiers()
    ensures FeasibilityTone(Options[0].feasibility) == Success
    ensures FeasibilityTone(Options[1].feasibility) == Warning
    ensures FeasibilityTone(Options[2].feasibility) == Destructive
    ensures ApplicableRoutes(Options) == ["route1", "route2"]
  {
    assert ApplicableRoutes(Options[2..]) == [];
    assert ApplicableRoutes(Options[1..]) == ["route2"];
  }

  /** The route the comparison card recommends is the most feasible option on
      offer, it differs from the current route, and its estimate is the
      scheduled time plus that option's extra minutes. */
  lemma RecommendationIsMostFeasible()
    ensures MostFeasible(Options) == Some(Options[0])
    ensures Options[0].route == RecommendedRoute
    ensures RecommendedRoute != CurrentRoute
    ensures forall i :: 0 <= i < |Options| ==> Options[i].route != CurrentRoute
    ensures ScheduledMinutes + Options[0].additionalTime == RecommendedMinutes
  {
    var os := Options;
    assert MostFeasible(os[2..]) == Some(os[2]);
    assert MostFeasible(os[1..]) == Some(os[1]);
    assert |RecommendedRoute| != |CurrentRoute|;
    assert os[1].route[5] != CurrentRoute[5] && |os[2].route| != |CurrentRoute|;
  }

  /** The time-impact labels of the fixture routes. */
  lemma FixtureTimeImpacts()
    ensures TimeImpact(Options[0]) == ("+8 min", Warning)
    ensures TimeImpact(Options[1]) == ("-3 min", Success)
    ensures TimeImpact(Options[2]) == ("+12 min", Warning)
  {
    assert NatToString(8) == "8";
    assert MinutesText(8) == "+8 min";
    assert NatToString(3) == "3";
    assert IntToString(-3) == "-3";
    assert MinutesText(-3) == "-3 min";
    assert NatToString(12) == "12";
    assert MinutesText(12) == "+12 min";
  }
}

=== FILE: seqs.dfy ===
/** Order-preserving filtering of sequences, the model of JavaScript's
    `Array.prototype.filter`, and the facts about it the pages rely on. */
module Seqs {

  /** `a` can be obtained from `b` by deleting elements, keeping the order of the rest. */
  ghost predicate IsSubsequence<T>(a: seq<T>, b: seq<T>)
    decreases |b|
  {
    if a == [] then true
    else if b == [] then false
    else (a[0] == b[0] && IsSubsequence(a[1..], b[1..])) || IsSubsequence(a, b[1..])
  }

  /** No element occurs twice. */
  ghost predicate NoDuplicates<T>(s: seq<T>) {
    forall i, j :: 0 <= i < j < |s| ==> s[i] != s[j]
  }

  /** The elements of `xs` satisfying `p`, in their original order. */
  function Filter<T(!new)>(xs: seq<T>, p: T -> bool): (r: seq<T>)
    ensures |r| <= |xs|
    ensures forall i :: 0 <= i < |r| ==> p(r[i])
    ensures forall x :: x in r <==> x in xs && p(x)
  {
    if |xs| == 0 then [] else (if p(xs[0]) then [xs[0]] else []) + Filter(xs[1..], p)
  }

  /** Filtering keeps every occurrence of a surviving value and drops every
      occurrence of the others. */
  lemma {:induction false} FilterMultiplicity<T(!new)>(xs: seq<T>, p: T -> bool, x: T)
    ensures multiset(Filter(xs, p))[x] == if p(x) then multiset(xs)[x] else 0
    decreases |xs|
  {
    if |xs| > 0 {
      FilterMultiplicity(xs[1..], p, x);
      assert xs == [xs[0]] + xs[1..];
    }
  }

  /** Filtering keeps the survivors in the order they had. */
  lemma {:induction false} FilterIsSubsequence<T(!new)>(xs: seq<T>, p: T -> bool)
    ensures IsSubsequence(Filter(xs, p), xs)
    decreases |xs|
  {
    if |xs| > 0 {
      FilterIsSubsequence(xs[1..], p);
      var rest := Filter(xs[1..], p);
      if p(xs[0]) {
        assert Filter(xs, p) == [xs[0]] + rest;
        assert ([xs[0]] + rest)[1..] == rest;
      } else {
        assert Filter(xs, p) == rest;
        SubsequenceOfTail(rest, xs);
      }
    }
  }

  /** A subsequence of the tail is a subsequence of the whole. */
  lemma SubsequenceOfTail<T>(a: seq<T>, b: seq<T>)
    requires |b| > 0 && IsSubsequence(a, b[1..])
    ensures IsSubsequence(a, b)
  {
  }

  /** Deleting elements cannot create a duplicate. */
  lemma {:induction false} SubsequenceKeepsNoDuplicates<T>(a: seq<T>, b: seq<T>)
    requires IsSubsequence(a, b) && NoDuplicates(b)
    ensures NoDuplicates(a)
    decreases |b|
  {
    if a != [] {
      if a[0] == b[0] && IsSubsequence(a[1..], b[1..]) {
        SubsequenceKeepsNoDuplicates(a[1..], b[1..]);
        SubsequenceMembers(a[1..], b[1..]);
        forall i, j | 0 <= i < j < |a| ensures a[i] != a[j] {
          if i == 0 {
            assert a[j] == a[1..][j - 1];
            assert a[j] in b[1..];
          } else {
            assert a[i] == a[1..][i - 1] && a[j] == a[1..][j - 1];
          }
        }
      } else {
        SubsequenceKeepsNoDuplicates(a, b[1..]);
      }
    }
  }

  /** Every element of a subsequence occurs in the sequence. */
  lemma {:induction false} SubsequenceMembers<T>(a: seq<T>, b: seq<T>)
    requires IsSubsequence(a, b)
    ensures forall x :: x in a ==> x in b
    decreases |b|
  {
    if a != [] {
      if a[0] == b[0] && IsSubsequence(a[1..], b[1..]) {
        SubsequenceMembers(a[1..], b[1..]);
        assert a == [a[0]] + a[1..];
      } else {
        SubsequenceMembers(a, b[1..]);
      }
    }
  }

  /** One step of `Filter`: the head is kept exactly when it passes. */
  lemma FilterCons<T(!new)>(xs: seq<T>, p: T -> bool)
    requires |xs| > 0
    ensures Filter(xs, p) == (if p(xs[0]) then [xs[0]] else []) + Filter(xs[1..], p)
  {
  }

  /** Filtering by two predicates that agree on every element gives the same result. */
  lemma {:induction false} FilterCongruent<T(!new)>(xs: seq<T>, p: T -> bool, q: T -> bool)
    requires forall i :: 0 <= i < |xs| ==> p(xs[i]) == q(xs[i])
    ensures Filter(xs, p) == Filter(xs, q)
    decreases |xs|
  {
    if |xs| > 0 {
      FilterCongruent(xs[1..], p, q);
    }
  }

  /** When two predicates never hold together, the survivors of their disjunction
      are counted by adding the survivors of each. */
  lemma {:induction false} FilterDisjointCount<T(!new)>(xs: seq<T>, p: T -> bool, q: T -> bool, pq: T -> bool)
    requires forall i :: 0 <= i < |xs| ==> !(p(xs[i]) && q(xs[i]))
    requires forall i :: 0 <= i < |xs| ==> pq(xs[i]) == (p(xs[i]) || q(xs[i]))
    ensures |Filter(xs, pq)| == |Filter(xs, p)| + |Filter(xs, q)|
    decreases |xs|
  {
    if |xs| > 0 {
      FilterDisjointCount(xs[1..], p, q, pq);
    }
  }

  /** Every element satisfies `p` exactly when filtering by `p` keeps everything. */
  lemma {:induction false} FilterAll<T(!new)>(xs: seq<T>, p: T -> bool)
    ensures (forall i :: 0 <= i < |xs| ==> p(xs[i])) <==> Filter(xs, p) == xs
    decreases |xs|
  {
    if |xs| > 0 {
      FilterAll(xs[1..], p);
      var rest := Filter(xs[1..], p);
      assert xs == [xs[0]] + xs[1..];
      if p(xs[0]) {
        assert Filter(xs, p) == [xs[0]] + rest;
      } else {
        // a dropped head leaves the result shorter than the input
        assert Filter(xs, p) == rest && |rest| < |xs|;
      }
    }
  }

  /** Filtering by a predicate no element satisfies leaves nothing. */
  lemma {:induction false} FilterNone<T(!new)>(xs: seq<T>, p: T -> bool)
    requires forall i :: 0 <= i < |xs| ==> !p(xs[i])
    ensures Filter(xs, p) == []
    decreases |xs|
  {
    if |xs| > 0 {
      FilterNone(xs[1..], p);
    }
  }

  /** Filtering by a predicate is empty exactly when no element satisfies it. */
  lemma FilterEmpty<T(!new)>(xs: seq<T>, p: T -> bool)
    ensures Filter(xs, p) == [] <==> forall i :: 0 <= i < |xs| ==> !p(xs[i])
  {
    if forall i :: 0 <= i < |xs| ==> !p(xs[i]) {
      FilterNone(xs, p);
    } else {
      var i :| 0 <= i < |xs| && p(xs[i]);
      assert xs[i] in xs;
    }
  }

  /** The first survivor is the first element that passes: everything before it fails. */
  lemma {:induction false} FilterFirst<T(!new)>(xs: seq<T>, p: T -> bool)
    requires Filter(xs, p) != []
    ensures exists j :: 0 <= j < |xs| && xs[j] == Filter(xs, p)[0] && forall i :: 0 <= i < j ==> !p(xs[i])
    decreases |xs|
  {
    if p(xs[0]) {
      assert xs[0] == Filter(xs, p)[0];
    } else {
      var tail := xs[1..];
      assert Filter(xs, p) == Filter(tail, p);
      FilterFirst(tail, p);
      var j :| 0 <= j < |tail| && tail[j] == Filter(tail, p)[0] && forall i :: 0 <= i < j ==> !p(tail[i]);
      assert xs[j + 1] == Filter(xs, p)[0];
      assert forall i :: 0 <= i < j + 1 ==> !p(xs[i]) by {
        forall i | 0 <= i < j + 1 ensures !p(xs[i]) {
          if i > 0 {
            assert xs[i] == tail[i - 1];
          }
        }
      }
    }
  }

  /** How many elements of `xs` have key `k`, tallied one element at a time. */
  ghost function CountKey<T, K>(xs: seq<T>, key: T -> K, k: K): nat
    decreases |xs|
  {
    if |xs| == 0 then 0 else (if key(xs[0]) == k then 1 else 0) + CountKey(xs[1..], key, k)
  }

  /** Counting the elements that pass a test for one key value is tallying
      that key value. */
  lemma {:induction false} FilterCountsKey<T(!new), K>(xs: seq<T>, key: T -> K, k: K, p: T -> bool)
    requires forall i :: 0 <= i < |xs| ==> p(xs[i]) == (key(xs[i]) == k)
    ensures |Filter(xs, p)| == CountKey(xs, key, k)
    decreases |xs|
  {
    if |xs| > 0 {
      FilterCountsKey(xs[1..], key, k, p);
    }
  }
}

=== FILE: text.dfy ===
/** The JavaScript string primitives the pages use — `split` on one character,
    `join`, and `trim` — defined over `seq<char>`. */
module Text {

  /** The code points `String.prototype.trim` removes: the WhiteSpace and
      LineTerminator productions of ECMA-262 (sections 12.2 and 12.3). */
  const Whitespace: set<char> := {
    '\t', '\n', '\U{000B}', '\U{000C}', '\r', ' ', '\U{00A0}', '\U{1680}',
    '\U{2000}', '\U{2001}', '\U{2002}', '\U{2003}', '\U{2004}', '\U{2005}',
    '\U{2006}', '\U{2007}', '\U{2008}', '\U{2009}', '\U{200A}',
    '\U{2028}', '\U{2029}', '\U{202F}', '\U{205F}', '\U{3000}', '\U{FEFF}'
  }

  predicate IsWhitespace(c: char) {
    c in Whitespace
  }

  /** Neither end of `s` is whitespace: `trim` leaves it alone. */
  predicate IsTrimmed(s: string) {
    s == [] || (!IsWhitespace(s[0]) && !IsWhitespace(s[|s| - 1]))
  }

  /** The index of the first non-whitespace character of `s` at or after `i`,
      or `|s|` when there is none. */
  function SkipSpace(s: string, i: nat): (j: nat)
    requires i <= |s|
    ensures i <= j <= |s|
    ensures forall k {:trigger IsWhitespace(s[k])} :: i <= k < j ==> IsWhitespace(s[k])
    ensures j < |s| ==> !IsWhitespace(s[j])
    decreases |s| - i
  {
    if i < |s| && IsWhitespace(s[i]) then SkipSpace(s, i + 1) else i
  }

  /** The end of `s[lo..j]` once its trailing whitespace is dropped. */
  function SkipSpaceBack(s: string, lo: nat, j: nat): (e: nat)
    requires lo <= j <= |s|
    ensures lo <= e <= j
    ensures forall k {:trigger IsWhitespace(s[k])} :: e <= k < j ==> IsWhitespace(s[k])
    ensures e > lo ==> !IsWhitespace(s[e - 1])
    decreases j
  {
    if j > lo && IsWhitespace(s[j - 1]) then SkipSpaceBack(s, lo, j - 1) else j
  }

  /** `SkipSpace` is the only index with its postcondition. */
  lemma SkipSpaceUnique(s: string, i: nat, j: nat)
    requires i <= j <= |s|
    requires forall k {:trigger IsWhitespace(s[k])} :: i <= k < j ==> IsWhitespace(s[k])
    requires j < |s| ==> !IsWhitespace(s[j])
    ensures SkipSpace(s, i) == j
  {
    var r := SkipSpace(s, i);
    assert r < |s| ==> !IsWhitespace(s[r]);
  }

  /** `SkipSpaceBack` is the only index with its postcondition. */
  lemma SkipSpaceBackUnique(s: string, lo: nat, j: nat, e: nat)
    requires lo <= e <= j <= |s|
    requires forall k {:trigger IsWhitespace(s[k])} :: e <= k < j ==> IsWhitespace(s[k])
    requires e > lo ==> !IsWhitespace(s[e - 1])
    ensures SkipSpaceBack(s, lo, j) == e
  {
    var r := SkipSpaceBack(s, lo, j);
    assert r > lo ==> !IsWhitespace(s[r - 1]);
  }

  /** `s.trim()`: `s` without its leading and trailing whitespace. */
  function Trim(s: string): (r: string)
    ensures IsTrimmed(r) && |r| <= |s|
  {
    var a := SkipSpace(s, 0);
    s[a..SkipSpaceBack(s, a, |s|)]
  }

  /** What `trim` keeps is the infix of `s` between a whitespace prefix and a
      whitespace suffix. */
  lemma TrimIsInfix(s: string)
    ensures var a := SkipSpace(s, 0); var r := Trim(s);
      a + |r| <= |s| && r == s[a..a + |r|] &&
      (forall k {:trigger IsWhitespace(s[k])} :: 0 <= k < a ==> IsWhitespace(s[k])) &&
      (forall k {:trigger IsWhitespace(s[k])} :: a + |r| <= k < |s| ==> IsWhitespace(s[k]))
  {
  }

  /** Every character of `s` is whitespace. */
  predicate IsAllWhitespace(s: string) {
    forall k {:trigger IsWhitespace(s[k])} :: 0 <= k < |s| ==> IsWhitespace(s[k])
  }

  /** `s` is `r` with whitespace, possibly none, on either side. */
  ghost predicate IsPadded(s: string, r: string) {
    exists a, b :: s == a + r + b && IsAllWhitespace(a) && IsAllWhitespace(b)
  }

  /** `trim` removes a whitespace prefix and a whitespace suffix and nothing else. */
  lemma TrimIsPadded(s: string)
    ensures IsPadded(s, Trim(s))
  {
    var i := SkipSpace(s, 0);
    var r := Trim(s);
    TrimIsInfix(s);
    var a, b := s[..i], s[i + |r|..];
    assert s == a + r + b;
    assert IsAllWhitespace(a) && IsAllWhitespace(b);
  }

  /** A trimmed window of `s` with only whitespace outside it is what `trim` keeps. */
  lemma TrimOfWindow(s: string, i: nat, j: nat)
    requires i <= j <= |s| && IsTrimmed(s[i..j])
    requires forall k {:trigger IsWhitespace(s[k])} :: 0 <= k < i ==> IsWhitespace(s[k])
    requires forall k {:trigger IsWhitespace(s[k])} :: j <= k < |s| ==> IsWhitespace(s[k])
    ensures Trim(s) == s[i..j]
  {
    if i == j {
      assert forall k {:trigger IsWhitespace(s[k])} :: 0 <= k < |s| ==> IsWhitespace(s[k]) by {
        forall k | 0 <= k < |s| ensures IsWhitespace(s[k]) {
          if k >= i {
            assert k >= j;
          }
        }
      }
      SkipSpaceUnique(s, 0, |s|);
    } else {
      assert s[i] == s[i..j][0] && s[j - 1] == s[i..j][j - i - 1];
      SkipSpaceUnique(s, 0, i);
      SkipSpaceBackUnique(s, i, |s|, j);
    }
  }

  /** Whitespace around trimmed text is exactly what `trim` removes. */
  lemma TrimOfPadded(a: string, r: string, b: string)
    requires IsAllWhitespace(a) && IsAllWhitespace(b) && IsTrimmed(r)
    ensures Trim(a + r + b) == r
  {
    var s := a + r + b;
    var i, j := |a|, |a| + |r|;
    forall k | 0 <= k < i ensures IsWhitespace(s[k]) {
      assert s[k] == a[k];
    }
    forall k | j <= k < |s| ensures IsWhitespace(s[k]) {
      assert s[k] == b[k - j];
    }
    assert s[i..j] == r;
    TrimOfWindow(s, i, j);
  }

  /** Trimmed text with whitespace around it is that text's only trimmed core. */
  lemma PaddedTrimmedIsTrim(s: string, r: string)
    requires IsPadded(s, r) && IsTrimmed(r)
    ensures Trim(s) == r
  {
    var a, b :| s == a + r + b && IsAllWhitespace(a) && IsAllWhitespace(b);
    TrimOfPadded(a, r, b);
  }

  /** Trimming adds no character: what is absent from `s` is absent from its trim. */
  lemma TrimAvoids(s: string, c: char)
    requires c !in s
    ensures c !in Trim(s)
  {
    var a := SkipSpace(s, 0);
    var r := Trim(s);
    forall k | 0 <= k < |r| ensures r[k] != c {
      assert r[k] == s[a + k];
    }
  }

  /** Trimming is the identity exactly on strings that are already trimmed. */
  lemma TrimIdentity(s: string)
    ensures Trim(s) == s <==> IsTrimmed(s)
  {
    if IsTrimmed(s) && s != [] {
      SkipSpaceUnique(s, 0, 0);
      SkipSpaceBackUnique(s, 0, |s|, |s|);
      assert s[0..|s|] == s;
    }
  }

  /** A trailing whitespace character, such as the `\r` of a CRLF line end,
      does not change the trimmed text. */
  lemma TrimDropsTrailingWhitespace(s: string, w: char)
    requires IsWhitespace(w)
    ensures Trim(s + [w]) == Trim(s)
  {
    TrimIsInfix(s);
    var t := s + [w];
    var i := SkipSpace(s, 0);
    var j := i + |Trim(s)|;
    forall k | 0 <= k < i ensures IsWhitespace(t[k]) {
      assert t[k] == s[k];
    }
    forall k | j <= k < |t| ensures IsWhitespace(t[k]) {
      if k < |s| {
        assert t[k] == s[k];
      }
    }
    assert t[i..j] == s[i..j];
    TrimOfWindow(t, i, j);
  }

  /** A leading whitespace character does not change the trimmed text. */
  lemma TrimDropsLeadingWhitespace(w: char, s: string)
    requires IsWhitespace(w)
    ensures Trim([w] + s) == Trim(s)
  {
    TrimIsInfix(s);
    var t := [w] + s;
    var r := Trim(s);
    var i := SkipSpace(s, 0);
    var j := i + |r|;
    assert t[1..] == s;
    assert t[i + 1..j + 1] == s[i..j] == r;
    forall k | 0 <= k < i + 1 ensures IsWhitespace(t[k]) {
      if k > 0 {
        assert t[k] == s[k - 1];
      }
    }
    forall k | j + 1 <= k < |t| ensures IsWhitespace(t[k]) {
      assert t[k] == s[k - 1];
    }
    TrimOfWindow(t, i + 1, j + 1);
    assert Trim(t) == r;
  }

  /** A string made only of whitespace trims to the empty string. */
  lemma AllWhitespaceTrimsAway(s: string)
    requires forall k {:trigger IsWhitespace(s[k])} :: 0 <= k < |s| ==> IsWhitespace(s[k])
    ensures Trim(s) == []
  {
    SkipSpaceUnique(s, 0, |s|);
  }

  /** `s.split(sep)` for a one-character separator: the maximal separator-free
      pieces between occurrences of `sep`, one more piece than there are separators. */
  function Split(s: string, sep: char): (parts: seq<string>)
    ensures |parts| > 0
    ensures forall i :: 0 <= i < |parts| ==> sep !in parts[i]
    decreases |s|
  {
    if |s| == 0 then [""]
    else
      var rest := Split(s[1..], sep);
      if s[0] == sep then [""] + rest else [[s[0]] + rest[0]] + rest[1..]
  }

  /** `parts.join(sep)`. */
  function Join(parts: seq<string>, sep: string): string
    requires |parts| > 0
  {
    if |parts| == 1 then parts[0] else parts[0] + sep + Join(parts[1..], sep)
  }

  /** There is one more piece than there are separators. */
  lemma {:induction false} SplitCount(s: string, sep: char)
    ensures |Split(s, sep)| == multiset(s)[sep] + 1
    decreases |s|
  {
    if |s| > 0 {
      SplitCount(s[1..], sep);
      assert s == [s[0]] + s[1..];
    }
  }

  /** Joining the pieces of a split with the separator gives back the text. */
  lemma {:induction false} JoinSplit(s: string, sep: char)
    ensures Join(Split(s, sep), [sep]) == s
    decreases |s|
  {
    if |s| > 0 {
      var rest := Split(s[1..], sep);
      JoinSplit(s[1..], sep);
      assert Join(rest, [sep]) == s[1..];
      if s[0] == sep {
        var parts := [""] + rest;
        assert Split(s, sep) == parts;
        assert parts[1..] == rest;
        assert Join(parts, [sep]) == "" + [sep] + Join(rest, [sep]);
        assert s == [s[0]] + s[1..];
      } else {
        var parts := [[s[0]] + rest[0]] + rest[1..];
        assert Split(s, sep) == parts;
        if |rest| == 1 {
          assert Join(parts, [sep]) == [s[0]] + rest[0];
        } else {
          assert parts[1..] == rest[1..];
          assert Join(parts, [sep]) == [s[0]] + rest[0] + [sep] + Join(rest[1..], [sep]);
          assert Join(rest, [sep]) == rest[0] + [sep] + Join(rest[1..], [sep]);
        }
        assert s == [s[0]] + s[1..];
      }
    }
  }

  /** A separator splits the text into the pieces before it followed by the pieces after it. */
  lemma {:induction false} SplitAtSeparator(x: string, y: string, sep: char)
    ensures Split(x + [sep] + y, sep) == Split(x, sep) + Split(y, sep)
    decreases |x|
  {
    if |x| == 0 {
      assert x + [sep] + y == [sep] + y;
      assert ([sep] + y)[1..] == y;
    } else {
      assert (x + [sep] + y)[1..] == x[1..] + [sep] + y;
      SplitAtSeparator(x[1..], y, sep);
    }
  }

  /** Text without the separator is a single piece. */
  lemma {:induction false} SplitWithoutSeparator(s: string, sep: char)
    requires sep !in s
    ensures Split(s, sep) == [s]
    decreases |s|
  {
    if |s| > 0 {
      assert sep !in s[1..] by {
        forall k | 0 <= k < |s[1..]| ensures s[1..][k] != sep {
          assert s[1..][k] == s[k + 1];
        }
      }
      SplitWithoutSeparator(s[1..], sep);
      assert s == [s[0]] + s[1..];
    }
  }

  /** Splitting a join of separator-free pieces gives the pieces back. */
  lemma {:induction false} SplitJoin(parts: seq<string>, sep: char)
    requires |parts| > 0
    requires forall i :: 0 <= i < |parts| ==> sep !in parts[i]
    ensures Split(Join(parts, [sep]), sep) == parts
    decreases |parts|
  {
    if |parts| == 1 {
      SplitWithoutSeparator(parts[0], sep);
    } else {
      SplitJoin(parts[1..], sep);
      SplitAtSeparator(parts[0], Join(parts[1..], [sep]), sep);
      SplitWithoutSeparator(parts[0], sep);
      assert parts == [parts[0]] + parts[1..];
    }
  }

  /** Appending a non-separator character extends the last piece. */
  lemma {:induction false} SplitAppend(s: string, c: char, sep: char)
    requires c != sep
    ensures var parts := Split(s, sep);
      Split(s + [c], sep) == parts[..|parts| - 1] + [parts[|parts| - 1] + [c]]
    decreases |s|
  {
    var t := s + [c];
    var parts := Split(s, sep);
    if |s| == 0 {
      assert t[0] == c && t[1..] == [];
      var r := Split(t[1..], sep);
      assert r == [""] && r[0] == "" && r[1..] == [];
      assert [c] + r[0] == [c];
      assert Split(t, sep) == [[c]];
      assert parts == [""] && parts[0] + [c] == [c];
    } else {
      assert t[0] == s[0] && t[1..] == s[1..] + [c];
      SplitAppend(s[1..], c, sep);
      var rest := Split(s[1..], sep);
      var rest' := Split(t[1..], sep);
      assert rest' == ExtendLast(rest, c);
      if s[0] != sep {
        assert Split(t, sep) == [[s[0]] + rest'[0]] + rest'[1..];
        assert parts == [[s[0]] + rest[0]] + rest[1..];
        ExtendLastUnderHead(s[0], rest, c);
      } else {
        assert Split(t, sep) == [""] + rest';
        assert parts == [""] + rest;
        ExtendLastUnderEmpty(rest, c);
      }
    }
  }

  /** `parts` with `c` appended to its last piece. */
  function ExtendLast(parts: seq<string>, c: char): (r: seq<string>)
    requires |parts| > 0
    ensures |r| == |parts|
  {
    parts[..|parts| - 1] + [parts[|parts| - 1] + [c]]
  }

  lemma ExtendLastUnderHead(x: char, rest: seq<string>, c: char)
    requires |rest| > 0
    ensures var r := ExtendLast(rest, c);
      [[x] + r[0]] + r[1..] == ExtendLast([[x] + rest[0]] + rest[1..], c)
  {
    var n := |rest|;
    var r := ExtendLast(rest, c);
    var p := [[x] + rest[0]] + rest[1..];
    if n == 1 {
      assert r == [rest[0] + [c]];
      assert [x] + r[0] == [x] + rest[0] + [c];
    } else {
      assert r[0] == rest[0];
      assert r[1..] == rest[1..n - 1] + [rest[n - 1] + [c]];
      assert p[..n - 1] == [[x] + rest[0]] + rest[1..n - 1];
    }
  }

  lemma ExtendLastUnderEmpty(rest: seq<string>, c: char)
    requires |rest| > 0
    ensures [""] + ExtendLast(rest, c) == ExtendLast([""] + rest, c)
  {
    var p := [""] + rest;
    assert p[..|p| - 1] == [""] + rest[..|rest| - 1];
  }

  /** The first piece of a split of text not starting with the separator begins
      with the text's first character. */
  lemma SplitHead(s: string, sep: char)
    requires |s| > 0 && s[0] != sep
    ensures Split(s, sep)[0] != [] && Split(s, sep)[0][0] == s[0]
  {
  }

  /** A character that is in no piece and not in the separator is not in the join. */
  lemma {:induction false} JoinAvoids(parts: seq<string>, sep: string, c: char)
    requires |parts| > 0 && c !in sep
    requires forall i :: 0 <= i < |parts| ==> c !in parts[i]
    ensures c !in Join(parts, sep)
    decreases |parts|
  {
    if |parts| > 1 {
      JoinAvoids(parts[1..], sep, c);
    }
  }

  /** `s` ends with `suffix`. */
  predicate EndsWith(s: string, suffix: string) {
    |suffix| <= |s| && s[|s| - |suffix|..] == suffix
  }
}

=== FILE: upload_data.dfy ===
/** The schedule upload page: the CSV header check (`validateData`), the page
    state around it, the gate on "Load into System" and the classification of
    the server's answer. */
module UploadData {
  import opened Wrappers
  import opened Seqs
  import opened Text

  // ------------------------------------------------------------------ header check

  /** The columns every schedule file must have, in the order they are reported. */
  const RequiredFields: seq<string> :=
    ["train_name", "station_code", "platform", "scheduled_arrival", "scheduled_departure"]

  /** `filter(Boolean)` on strings keeps the non-empty ones. */
  predicate IsNonEmpty(s: string) {
    s != []
  }

  /** The lines `data.split("\n").filter(Boolean)` keeps. */
  function Lines(data: string): (lines: seq<string>)
    ensures forall i :: 0 <= i < |lines| ==> lines[i] != [] && '\n' !in lines[i]
  {
    Filter(Split(data, '\n'), IsNonEmpty)
  }

  /** The first non-empty line, or `None` when there is none: the case where
      `lines[0]` is undefined and reading its `split` throws. */
  function FirstLine(data: string): (r: Option<string>)
    ensures var parts := Split(data, '\n');
      r.Some? <==> exists i :: 0 <= i < |parts| && parts[i] != []
    ensures var parts := Split(data, '\n');
      r.Some? ==> (r.value != [] &&
        exists j :: 0 <= j < |parts| && parts[j] == r.value && forall i :: 0 <= i < j ==> parts[i] == [])
  {
    var parts := Split(data, '\n');
    var lines := Lines(data);
    FilterEmpty(parts, IsNonEmpty);
    assert lines == [] <==> forall i :: 0 <= i < |parts| ==> parts[i] == [];
    if |lines| == 0 then None
    else
      FilterFirst(parts, IsNonEmpty);
      assert exists i :: 0 <= i < |parts| && parts[i] != [];
      assert parts == Split(data, '\n');
      Some(lines[0])
  }

  /** Trimming each piece of a comma-free list keeps it comma-free. */
  lemma TrimmedPiecesAvoid(parts: seq<string>, c: char)
    requires forall i :: 0 <= i < |parts| ==> c !in parts[i]
    ensures forall i :: 0 <= i < |parts| ==> c !in Trim(parts[i])
  {
    forall i | 0 <= i < |parts| ensures c !in Trim(parts[i]) {
      TrimAvoids(parts[i], c);
    }
  }

  /** Each piece is its trim with whitespace around it. */
  lemma PiecesArePadded(parts: seq<string>)
    ensures forall i :: 0 <= i < |parts| ==> IsPadded(parts[i], Trim(parts[i]))
  {
    forall i | 0 <= i < |parts| ensures IsPadded(parts[i], Trim(parts[i])) {
      TrimIsPadded(parts[i]);
    }
  }

  /** `line.split(",").map(h => h.trim())`: the i-th column is the i-th
      comma-separated piece without the whitespace around it. */
  function Columns(line: string): (cols: seq<string>)
    ensures |cols| == multiset(line)[','] + 1
    ensures forall i :: 0 <= i < |cols| ==> IsTrimmed(cols[i]) && ',' !in cols[i]
    ensures |cols| == |Split(line, ',')|
    ensures forall i :: 0 <= i < |cols| ==> IsPadded(Split(line, ',')[i], cols[i])
  {
    var parts := Split(line, ',');
    SplitCount(line, ',');
    TrimmedPiecesAvoid(parts, ',');
    PiecesArePadded(parts);
    seq(|parts|, i requires 0 <= i < |parts| => Trim(parts[i]))
  }

  /** The header row as the source reads it, or `None` when the input has no
      non-empty line: one trimmed, comma-free name per comma-separated piece of
      the first non-empty line, that piece without the whitespace around it. */
  function Header(data: string): (h: Option<seq<string>>)
    ensures h == None <==> FirstLine(data) == None
    ensures h.Some? ==> |h.value| == multiset(FirstLine(data).value)[','] + 1
    ensures h.Some? ==> forall i :: 0 <= i < |h.value| ==> IsTrimmed(h.value[i]) && ',' !in h.value[i]
    ensures h.Some? ==> |h.value| == |Split(FirstLine(data).value, ',')|
    ensures h.Some? ==> forall i :: 0 <= i < |h.value| ==> IsPadded(Split(FirstLine(data).value, ',')[i], h.value[i])
  {
    match FirstLine(data)
    case None => None
    case Some(line) => Some(Columns(line))
  }

  /** `requiredFields.filter(f => !header.includes(f))`. */
  function MissingFields(header: seq<string>): (missing: seq<string>)
    ensures forall f :: f in missing <==> f in RequiredFields && f !in header
  {
    Filter(RequiredFields, (f: string) => f !in header)
  }

  /** The outcome of `validateData`: the header has every required column, some
      are missing (reported in the toast), or the input could not be parsed. */
  datatype Verdict = Conforms | MissingColumns(fields: seq<string>) | CouldNotParse

  /** `validateData` without its side effects. */
  function Validate(data: string): (v: Verdict)
    ensures v == CouldNotParse <==> Header(data) == None
    ensures v == Conforms <==> Header(data).Some? && forall f :: f in RequiredFields ==> f in Header(data).value
    ensures v.MissingColumns? ==>
      && v.fields != []
      && v.fields == MissingFields(Header(data).value)
      && forall f :: f in v.fields <==> f in RequiredFields && f !in Header(data).value
  {
    match Header(data)
    case None => CouldNotParse
    case Some(header) => Judge(header)
  }

  /** The verdict on a header that was read. */
  function Judge(header: seq<string>): (v: Verdict)
    ensures v != CouldNotParse
    ensures v == Conforms <==> forall f :: f in RequiredFields ==> f in header
    ensures v.MissingColumns? ==> v.fields == MissingFields(header)
  {
    var missing := MissingFields(header);
    if missing == [] then Conforms
    else
      assert missing[0] in missing;
      MissingColumns(missing)
  }

  /** The required column names differ from each other (they even differ in length). */
  lemma RequiredFieldsDistinct()
    ensures NoDuplicates(RequiredFields)
  {
    var r := RequiredFields;
    assert |r[0]| == 10 && |r[1]| == 12 && |r[2]| == 8 && |r[3]| == 17 && |r[4]| == 19;
  }

  /** The reported missing columns follow the required order and never repeat. */
  lemma MissingInRequiredOrder(header: seq<string>)
    ensures IsSubsequence(MissingFields(header), RequiredFields)
    ensures NoDuplicates(MissingFields(header))
  {
    FilterIsSubsequence(RequiredFields, (f: string) => f !in header);
    RequiredFieldsDistinct();
    SubsequenceKeepsNoDuplicates(MissingFields(header), RequiredFields);
  }

  /** Empty lines before the header are skipped. */
  lemma SkipsLeadingNewline(s: string)
    ensures FirstLine("\n" + s) == FirstLine(s)
  {
    assert ("\n" + s)[1..] == s;
    assert Split("\n" + s, '\n') == [""] + Split(s, '\n');
  }

  /** A non-empty line at the start of the input, ended by a newline or by the
      end of the input, is the first line. */
  lemma FirstLineIsLeadingLine(line: string, rest: string)
    requires line != [] && '\n' !in line
    requires rest == [] || rest[0] == '\n'
    ensures FirstLine(line + rest) == Some(line)
  {
    SplitWithoutSeparator(line, '\n');
    if rest == [] {
      assert line + rest == line;
    } else {
      assert line + rest == line + ['\n'] + rest[1..];
      SplitAtSeparator(line, rest[1..], '\n');
    }
  }

  /** There is no header, and validation reports "could not parse", exactly when
      the input consists of newlines only — the empty input included. */
  lemma {:induction false} NoHeaderIffBlank(data: string)
    ensures Header(data) == None <==> forall i :: 0 <= i < |data| ==> data[i] == '\n'
    decreases |data|
  {
    if |data| > 0 {
      if data[0] == '\n' {
        assert data == "\n" + data[1..];
        SkipsLeadingNewline(data[1..]);
        NoHeaderIffBlank(data[1..]);
        assert (forall i :: 0 <= i < |data| ==> data[i] == '\n') <==>
               (forall i :: 0 <= i < |data[1..]| ==> data[1..][i] == '\n');
      } else {
        var parts := Split(data, '\n');
        SplitHead(data, '\n');
        assert IsNonEmpty(parts[0]);
        assert Lines(data) == [parts[0]] + Filter(parts[1..], IsNonEmpty) by {
          assert parts == [parts[0]] + parts[1..];
        }
      }
    }
  }

  /** A carriage return ending the header line, as in a file with CRLF line
      ends, does not change the header: `trim` removes it from the last column. */
  lemma CarriageReturnIgnored(line: string, rest: string)
    requires line != [] && '\n' !in line
    requires rest == [] || rest[0] == '\n'
    ensures Header(line + "\r" + rest) == Header(line + rest)
  {
    assert line + "\r" + rest == (line + ['\r']) + rest;
    FirstLineIsLeadingLine(line + ['\r'], rest);
    FirstLineIsLeadingLine(line, rest);
    ColumnsIgnoreTrailingWhitespace(line, '\r');
  }

  lemma ColumnsIgnoreTrailingWhitespace(line: string, w: char)
    requires IsWhitespace(w) && w != ','
    ensures Columns(line + [w]) == Columns(line)
  {
    SplitAppend(line, w, ',');
    var parts := Split(line, ',');
    var parts' := Split(line + [w], ',');
    var n := |parts|;
    TrimDropsTrailingWhitespace(parts[n - 1], w);
    var a := Columns(line + [w]);
    var b := Columns(line);
    assert |a| == |b| == n;
    forall i | 0 <= i < n ensures a[i] == b[i] {
      if i < n - 1 {
        assert parts'[i] == parts[i];
      } else {
        assert parts'[i] == parts[n - 1] + [w];
      }
    }
  }

  /** Only which names the header contains matters: the order of the columns,
      repetitions and extra columns do not change the verdict. */
  lemma VerdictDependsOnColumnSet(a: string, b: string)
    requires Header(a).Some? && Header(b).Some?
    requires forall f :: f in Header(a).value <==> f in Header(b).value
    ensures Validate(a) == Validate(b)
  {
    JudgeDependsOnColumnSet(Header(a).value, Header(b).value);
  }

  lemma JudgeDependsOnColumnSet(ha: seq<string>, hb: seq<string>)
    requires forall f :: f in ha <==> f in hb
    ensures Judge(ha) == Judge(hb)
  {
    var r := RequiredFields;
    forall i | 0 <= i < |r| ensures (r[i] !in ha) == (r[i] !in hb) {
    }
    FilterCongruent(r, (f: string) => f !in ha, (f: string) => f !in hb);
  }

  /** A name that can stand in a header line: no comma, no newline, and no
      whitespace at either end. */
  predicate ColumnName(s: string) {
    ',' !in s && '\n' !in s && IsTrimmed(s)
  }

  /** The header line written by joining trimmed column names with commas is
      read back as exactly those names. */
  lemma HeaderOfJoinedColumns(cols: seq<string>, rest: string)
    requires |cols| > 0 && cols[0] != []
    requires forall i :: 0 <= i < |cols| ==> ColumnName(cols[i])
    requires rest == [] || rest[0] == '\n'
    ensures Header(Join(cols, ",") + rest) == Some(cols)
  {
    var line := Join(cols, ",");
    if |cols| > 1 {
      assert line == cols[0] + "," + Join(cols[1..], ",");
    }
    JoinAvoids(cols, ",", '\n');
    FirstLineIsLeadingLine(line, rest);
    ColumnsOfJoin(cols);
  }

  lemma ColumnsOfJoin(cols: seq<string>)
    requires |cols| > 0
    requires forall i :: 0 <= i < |cols| ==> ColumnName(cols[i])
    ensures Columns(Join(cols, ",")) == cols
  {
    SplitJoin(cols, ',');
    var c := Columns(Join(cols, ","));
    assert |c| == |cols|;
    forall i | 0 <= i < |cols| ensures c[i] == cols[i] {
      TrimIdentity(cols[i]);
    }
  }

  /** Names written with whitespace around them, joined by commas, are read
      back as the bare names. */
  lemma ColumnsOfPaddedJoin(cols: seq<string>, padded: seq<string>)
    requires |cols| > 0 && |padded| == |cols|
    requires forall i :: 0 <= i < |cols| ==> IsTrimmed(cols[i]) && ',' !in cols[i]
    requires forall i :: 0 <= i < |cols| ==> ',' !in padded[i] && IsPadded(padded[i], cols[i])
    ensures Columns(Join(padded, ",")) == cols
  {
    SplitJoin(padded, ',');
    var c := Columns(Join(padded, ","));
    forall i | 0 <= i < |cols| ensures c[i] == cols[i] {
      PaddedTrimmedIsTrim(padded[i], cols[i]);
    }
  }

  /** Spaces around a comma do not matter: "x , y" reads as the names x and y. */
  lemma SpacedColumnsReadNames(x: string, y: string)
    requires IsTrimmed(x) && ',' !in x && IsTrimmed(y) && ',' !in y
    ensures Columns(x + " , " + y) == [x, y]
  {
    var padded := [x + " ", " " + y];
    assert padded[1..] == [" " + y];
    assert Join(padded, ",") == x + " , " + y;
    assert padded[0] == "" + x + " " && IsAllWhitespace("") && IsAllWhitespace(" ");
    assert padded[1] == " " + y + "";
    assert ',' !in padded[0] && ',' !in padded[1];
    ColumnsOfPaddedJoin([x, y], padded);
  }

  /** A header line "x , y" is read as the two names. */
  lemma SpacedHeaderReadsNames(x: string, y: string, rest: string)
    requires ColumnName(x) && ColumnName(y)
    requires rest == [] || rest[0] == '\n'
    ensures Header(x + " , " + y + rest) == Some([x, y])
  {
    var line := x + " , " + y;
    assert '\n' !in line;
    assert line != [];
    FirstLineIsLeadingLine(line, rest);
    SpacedColumnsReadNames(x, y);
  }

  // ------------------------------------------------------------------ fixed CSV texts

  /** The columns of the generated demo data: the required ones and four more. */
  const DemoColumns: seq<string> := RequiredFields +
    ["actual_arrival", "actual_departure", "delay_arrival_min", "delay_departure_min"]

  /** The text `generateDemoData` puts on the page: its header line is the demo
      columns joined by commas, followed by three schedule rows. */
  const DemoCsv: string := Join(DemoColumns, ",") + "\n" + Join([
    "Express 101,CEN,1,14:00,14:05,14:02,14:06,2,1",
    "Local 202,NTH,2,14:15,14:20,14:18,14:22,3,2",
    "Superfast 303,STH,1,14:30,14:35,14:31,14:36,1,1"], "\n")

  /** The template `downloadSample` offers: the required columns, then three rows. */
  const SampleCsv: string := Join(RequiredFields, ",") + "\n" + Join([
    "Express 101,CEN,1,14:00,14:05",
    "Local 202,NTH,2,14:15,14:20",
    "Superfast 303,STH,1,14:30,14:35"], "\n")

  lemma RequiredAreColumnNames()
    ensures forall i :: 0 <= i < |RequiredFields| ==> ColumnName(RequiredFields[i])
  {
    var r := RequiredFields;
    assert ColumnName(r[0]);
    assert ColumnName(r[1]);
    assert ColumnName(r[2]);
    assert ColumnName(r[3]);
    assert ColumnName(r[4]);
  }

  lemma DemoAreColumnNames()
    ensures forall i :: 0 <= i < |DemoColumns| ==> ColumnName(DemoColumns[i])
  {
    RequiredAreColumnNames();
    var c := DemoColumns;
    assert ColumnName(c[5]);
    assert ColumnName(c[6]);
    assert ColumnName(c[7]);
    assert ColumnName(c[8]);
  }

  /** The demo data passes the check `generateDemoData` skips when it marks it valid. */
  lemma DemoCsvConforms()
    ensures Header(DemoCsv) == Some(DemoColumns)
    ensures Validate(DemoCsv) == Conforms
  {
    var rows := "\n" + Join([
      "Express 101,CEN,1,14:00,14:05,14:02,14:06,2,1",
      "Local 202,NTH,2,14:15,14:20,14:18,14:22,3,2",
      "Superfast 303,STH,1,14:30,14:35,14:31,14:36,1,1"], "\n");
    assert DemoCsv == Join(DemoColumns, ",") + rows;
    DemoAreColumnNames();
    HeaderOfJoinedColumns(DemoColumns, rows);
  }

  /** The downloadable template passes the check too. */
  lemma SampleCsvConforms()
    ensures Header(SampleCsv) == Some(RequiredFields)
    ensures Validate(SampleCsv) == Conforms
  {
    var rows := "\n" + Join([
      "Express 101,CEN,1,14:00,14:05",
      "Local 202,NTH,2,14:15,14:20",
      "Superfast 303,STH,1,14:30,14:35"], "\n");
    assert SampleCsv == Join(RequiredFields, ",") + rows;
    RequiredAreColumnNames();
    HeaderOfJoinedColumns(RequiredFields, rows);
  }

  /** A header naming two of the five columns reports the other three, in order. */
  lemma TwoColumnHeaderReportsTheRest()
    ensures Validate("train_name,platform\nExpress 101,1")
      == MissingColumns(["station_code", "scheduled_arrival", "scheduled_departure"])
  {
    TwoColumnHeader();
    TwoColumnsMissing(["train_name", "platform"]);
    assert RequiredFields[1] == "station_code";
  }

  lemma TwoColumnHeader()
    ensures Header("train_name,platform\nExpress 101,1") == Some(["train_name", "platform"])
  {
    var header := ["train_name", "platform"];
    assert "train_name,platform\nExpress 101,1" == Join(header, ",") + "\nExpress 101,1";
    assert ColumnName(header[0]);
    assert ColumnName(header[1]);
    HeaderOfJoinedColumns(header, "\nExpress 101,1");
  }

  lemma TwoColumnsAbsent(header: seq<string>)
    requires header == ["train_name", "platform"]
    ensures RequiredFields[0] in header && RequiredFields[1] !in header && RequiredFields[2] in header
    ensures RequiredFields[3] !in header && RequiredFields[4] !in header
  {
    var r := RequiredFields;
    assert r[0] == header[0] && r[2] == header[1];
    assert r[1] != header[0] && r[1] != header[1];
    assert r[3] != header[0] && r[3] != header[1];
    assert r[4] != header[0] && r[4] != header[1];
  }

  lemma TwoColumnsMissing(header: seq<string>)
    requires header == ["train_name", "platform"]
    ensures MissingFields(header) == [RequiredFields[1], RequiredFields[3], RequiredFields[4]]
  {
    var absent := (f: string) => f !in header;
    var r := RequiredFields;
    TwoColumnsAbsent(header);
    FilterCons(r[4..], absent);
    assert r[4..][1..] == [];
    FilterCons(r[3..], absent);
    assert r[3..][1..] == r[4..];
    FilterCons(r[2..], absent);
    assert r[2..][1..] == r[3..];
    FilterCons(r[1..], absent);
    assert r[1..][1..] == r[2..];
    FilterCons(r, absent);
  }

  // ------------------------------------------------------------------ page state

  /** The `validationStatus` badge: `'none'` until the first check, then the last verdict. */
  datatype Status = Unchecked | Valid | Invalid

  function StatusOf(v: Verdict): (s: Status)
    ensures s == Valid <==> v == Conforms
    ensures s != Unchecked
  {
    if v == Conforms then Valid else Invalid
  }

  /** A chosen file: its name and the text `FileReader.readAsText` yields. */
  datatype File = File(name: string, content: string)

  /** The component state of the upload page. */
  datatype Page = Page(
    uploadedData: string,
    status: Status,
    demoGenerated: bool,
    loading: bool,
    selectedFile: Option<File>)

  const Initial: Page := Page("", Unchecked, false, false, None)

  /** Show new text and check it. */
  function Revalidate(p: Page, text: string): (q: Page)
    ensures q.uploadedData == text && q.status == StatusOf(Validate(text))
    ensures q.demoGenerated == p.demoGenerated && q.loading == p.loading && q.selectedFile == p.selectedFile
  {
    p.(uploadedData := text, status := StatusOf(Validate(text)))
  }

  /** `handleFileUpload`: no file chosen changes nothing; otherwise the file is
      selected, and its text shown and checked. */
  function ChooseFile(p: Page, file: Option<File>): (q: Page)
    ensures file == None ==> q == p
    ensures file.Some? ==> q.selectedFile == file && q.uploadedData == file.value.content
    ensures file.Some? ==> q.status == StatusOf(Validate(file.value.content))
    ensures file.Some? ==> q.loading == p.loading && q.demoGenerated == p.demoGenerated
  {
    match file
    case None => p
    case Some(f) => Revalidate(p.(selectedFile := file), f.content)
  }

  /** The textarea's `onChange`: the edited text is shown and checked; the
      selected file, the demo flag and the upload state stay as they were. */
  function EditText(p: Page, text: string): (q: Page)
    ensures q.uploadedData == text && q.status == StatusOf(Validate(text))
    ensures q.selectedFile == p.selectedFile && q.loading == p.loading && q.demoGenerated == p.demoGenerated
  {
    Revalidate(p, text)
  }

  /** `generateDemoData`: shows the demo text, marks it valid without checking it,
      and selects a file holding the same text. */
  function GenerateDemo(p: Page): (q: Page)
    ensures q.uploadedData == DemoCsv && q.status == Valid && q.demoGenerated
    ensures q.selectedFile == Some(File("demo_schedule.csv", DemoCsv))
    ensures q.loading == p.loading
    ensures q.status == StatusOf(Validate(q.uploadedData))
    ensures q.selectedFile.Some? && q.selectedFile.value.content == q.uploadedData
  {
    DemoCsvConforms();
    p.(uploadedData := DemoCsv, status := Valid, demoGenerated := true,
       selectedFile := Some(File("demo_schedule.csv", DemoCsv)))
  }

  /** "Load into System" can be pressed: the button's `disabled` test fails. */
  function LoadEnabled(p: Page): (enabled: bool)
    ensures enabled <==> !(p.status != Valid || p.selectedFile == None || p.loading)
  {
    p.status == Valid && p.selectedFile.Some? && !p.loading
  }

  /** The start of `loadIntoSystem`: without a selected file nothing happens;
      otherwise the upload is in flight. */
  function BeginLoad(p: Page): (q: Page)
    ensures p.selectedFile == None ==> q == p
    ensures p.selectedFile.Some? ==> q == p.(loading := true)
  {
    if p.selectedFile == None then p else p.(loading := true)
  }

  /** What the upload endpoint gave back: a JSON body with a `status` and maybe a
      `detail`, or a thrown error (network failure, or a body that is not JSON)
      with maybe a `message`. */
  datatype Reply = Answered(status: string, detail: Option<string>) | Threw(message: Option<string>)

  /** How the page reports an upload. */
  datatype UploadOutcome = Loaded(fileName: string) | Rejected(detail: string) | TransportError(message: string)

  /** `x || fallback` for an optional string: an absent or empty string is falsy. */
  function OrElse(x: Option<string>, fallback: string): (r: string)
    ensures x.Some? && x.value != "" ==> r == x.value
    ensures !(x.Some? && x.value != "") ==> r == fallback
  {
    if x.Some? && x.value != "" then x.value else fallback
  }

  /** The toast `loadIntoSystem` raises for a reply. */
  function Classify(fileName: string, reply: Reply): (o: UploadOutcome)
    ensures o.Loaded? <==> reply.Answered? && reply.status == "success"
    ensures o.Loaded? ==> o.fileName == fileName
    ensures o.Rejected? <==> reply.Answered? && reply.status != "success"
    ensures o.Rejected? ==> o.detail == if reply.detail.Some? && reply.detail.value != "" then reply.detail.value
                                         else "An error occurred during upload"
    ensures o.TransportError? <==> reply.Threw?
    ensures o.TransportError? ==> o.message == if reply.message.Some? && reply.message.value != "" then reply.message.value
                                               else "Unexpected error"
  {
    match reply
    case Answered(status, detail) =>
      if status == "success" then Loaded(fileName) else Rejected(OrElse(detail, "An error occurred during upload"))
    case Threw(message) => TransportError(OrElse(message, "Unexpected error"))
  }

  datatype Finished = Finished(page: Page, outcome: UploadOutcome)

  /** The end of `loadIntoSystem`: whatever the reply, `finally` clears `loading`. */
  function FinishLoad(p: Page, reply: Reply): (f: Finished)
    requires p.selectedFile.Some?
    ensures f.page == p.(loading := false)
    ensures f.outcome == Classify(p.selectedFile.value.name, reply)
  {
    Finished(p.(loading := false), Classify(p.selectedFile.value.name, reply))
  }

  /** What the user or the network can do to the page. */
  datatype Event = Choose(file: Option<File>) | Edit(text: string) | Demo | PressLoad | Reply(reply: Reply)

  /** One event, honouring the controls that are disabled: the file input and the
      demo button while loading, "Load into System" unless enabled. A reply only
      arrives while an upload is in flight. */
  function Step(p: Page, e: Event): (q: Page)
    ensures p.loading && (e.Choose? || e.Demo? || e.PressLoad?) ==> q == p
    ensures q.selectedFile != p.selectedFile ==> !p.loading && (e.Choose? || e.Demo?)
    ensures e.Edit? ==> q.uploadedData == e.text && q.status == StatusOf(Validate(e.text))
    ensures e.PressLoad? ==> (q.loading <==> p.loading || LoadEnabled(p))
    ensures e.Reply? && p.selectedFile.Some? ==> !q.loading
    ensures !p.loading && e.Choose? ==> q == ChooseFile(p, e.file)
    ensures !p.loading && e.Demo? ==> q == GenerateDemo(p)
    ensures e.Edit? ==> q.loading == p.loading && q.selectedFile == p.selectedFile && q.demoGenerated == p.demoGenerated
    ensures e.PressLoad? && LoadEnabled(p) ==> q == p.(loading := true)
    ensures e.PressLoad? && !LoadEnabled(p) ==> q == p
    ensures e.Reply? && p.loading && p.selectedFile.Some? ==> q == p.(loading := false)
    ensures e.Reply? && !(p.loading && p.selectedFile.Some?) ==> q == p
  {
    match e
    case Choose(f) => if p.loading then p else ChooseFile(p, f)
    case Edit(t) => EditText(p, t)
    case Demo => if p.loading then p else GenerateDemo(p)
    case PressLoad => if LoadEnabled(p) then BeginLoad(p) else p
    case Reply(r) => if p.loading && p.selectedFile.Some? then FinishLoad(p, r).page else p
  }

  /** The badge shows the verdict on the text on display, and an upload in flight
      has a file. */
  ghost predicate Consistent(p: Page) {
    && (p.status == Unchecked ==> p == Initial)
    && (p.status != Unchecked ==> p.status == StatusOf(Validate(p.uploadedData)))
    && (p.loading ==> p.selectedFile.Some?)
  }

  /** Every event keeps the page consistent; for the demo button this rests on
      the demo text passing the check. */
  lemma StepKeepsConsistent(p: Page, e: Event)
    requires Consistent(p)
    ensures Consistent(Step(p, e))
  {
    match e
    case Choose(f) =>
      if !p.loading && f.Some? {
        assert ChooseFile(p, f).status != Unchecked;
      }
    case Edit(t) =>
      assert EditText(p, t).status != Unchecked;
    case Demo =>
    case PressLoad =>
    case Reply(r) =>
  }

  lemma InitialConsistent()
    ensures Consistent(Initial)
  {
  }

  /** A consistent page whose load button is enabled shows text that passes the check. */
  lemma EnabledMeansShownTextConforms(p: Page)
    requires Consistent(p) && LoadEnabled(p)
    ensures Validate(p.uploadedData) == Conforms
  {
  }

  /** Pressing an enabled load button starts an upload; finishing it always ends
      the loading state and reports the reply. */
  lemma LoadRoundTrip(p: Page, r: Reply)
    requires LoadEnabled(p)
    ensures var q := Step(p, PressLoad);
      && q.loading
      && Step(q, Reply(r)) == p
      && FinishLoad(q, r).outcome == Classify(p.selectedFile.value.name, r)
  {
  }

  // ------------------------------------------------------------------ finding

  /** As written, an edit rechecks the text but the upload sends the selected
      file: after choosing a file with a bad header and typing a good one, the
      button is enabled for a file that never passed the check. */
  lemma EditedTextCanMaskInvalidFile()
    ensures var bad := File("schedule.csv", "platform\n");
      var p := Step(Step(Initial, Choose(Some(bad))), Edit(SampleCsv));
      && LoadEnabled(p)
      && p.selectedFile == Some(bad)
      && Validate(bad.content) != Conforms
  {
    var bad := File("schedule.csv", "platform\n");
    PlatformOnlyFails(bad.content);
    var chosen := Step(Initial, Choose(Some(bad)));
    assert chosen.selectedFile == Some(bad) && !chosen.loading;
    EditToSampleEnables(chosen);
  }

  /** A file holding only a "platform" header line fails the check. */
  lemma PlatformOnlyFails(content: string)
    requires content == "platform\n"
    ensures Validate(content) != Conforms
  {
    assert Header(content) == Some(["platform"]) by {
      assert content == Join(["platform"], ",") + "\n";
      assert ColumnName(["platform"][0]);
      HeaderOfJoinedColumns(["platform"], "\n");
    }
    assert RequiredFields[0] !in ["platform"];
  }

  /** Typing the sample template enables the load button for whatever file is selected. */
  lemma EditToSampleEnables(p: Page)
    requires p.selectedFile.Some? && !p.loading
    ensures var q := Step(p, Edit(SampleCsv)); LoadEnabled(q) && q.selectedFile == p.selectedFile
  {
    SampleCsvConforms();
  }

  /** The corrected edit: the selected file follows the edited text, so what is
      uploaded is what was checked. */
  function EditTextCorrected(p: Page, text: string): (q: Page)
    ensures q.status == StatusOf(Validate(text))
    ensures q.selectedFile.Some? <==> p.selectedFile.Some?
    ensures q.selectedFile.Some? ==> q.selectedFile.value == File(p.selectedFile.value.name, text)
  {
    var file := match p.selectedFile
      case None => None
      case Some(f) => Some(File(f.name, text));
    Revalidate(p.(selectedFile := file), text)
  }

  function StepCorrected(p: Page, e: Event): Page {
    match e
    case Edit(t) => EditTextCorrected(p, t)
    case _ => Step(p, e)
  }

  /** With the corrected edit the selected file always holds the text on display. */
  ghost predicate ConsistentCorrected(p: Page) {
    Consistent(p) && (p.selectedFile.Some? ==> p.selectedFile.value.content == p.uploadedData)
  }

  lemma StepCorrectedKeepsConsistent(p: Page, e: Event)
    requires ConsistentCorrected(p)
    ensures ConsistentCorrected(StepCorrected(p, e))
  {
    if e.Edit? {
      EditCorrectedKeepsConsistent(p, e.text);
    } else {
      StepKeepsConsistent(p, e);
      StepKeepsFileOnDisplay(p, e);
    }
  }

  /** Every event but an edit keeps the selected file holding the text on display. */
  lemma StepKeepsFileOnDisplay(p: Page, e: Event)
    requires !e.Edit?
    requires p.selectedFile.Some? ==> p.selectedFile.value.content == p.uploadedData
    ensures var q := Step(p, e); q.selectedFile.Some? ==> q.selectedFile.value.content == q.uploadedData
  {
  }

  lemma EditCorrectedKeepsConsistent(p: Page, t: string)
    requires ConsistentCorrected(p)
    ensures ConsistentCorrected(EditTextCorrected(p, t))
  {
    assert EditTextCorrected(p, t).status != Unchecked;
  }

  /** With the corrected edit, an enabled load button uploads a file that passes the check. */
  lemma CorrectedUploadsCheckedFile(p: Page)
    requires ConsistentCorrected(p) && LoadEnabled(p)
    ensures Validate(p.selectedFile.value.content) == Conforms
  {
  }
}

=== FILE: wrappers.dfy ===
/** The optional value used wherever the source yields `undefined` or `null`. */
module Wrappers {

  datatype Option<+T> = None | Some(value: T)
}
